=== FILE: README.md ===
# Pinkie VM core in Dafny

Pinkie runs programs written in Slari instruction code. This is a line-oriented
assembly with variables, labels, two numeric stacks, a comparison flag and a
byte heap. This project models the core of the virtual machine and proves
properties of that model:

- **Memory** (`memory.dfy`) models the memory record (`Memory.ts`). It holds the
  byte heap, the first-fit free list of half-open regions, the allocation size
  table, the stacks, the variable map and the comparison flag. `initHeap`,
  `isSafeHeap`, `setMem`, `malloc` and `free` appear twice:
  - as functions of a `MemState` value (`Initial`, `InFree`, `Store`,
    `Allocate`, `Release`), which carry the lemmas;
  - as methods of a `Memory` class whose fields the methods update in place.
    Each method is proved equal to its function.
- **Loader** (`loader.dfy`) models `loadProgram` and `generateBootStrap`.
  - A source line is trimmed, cut at the first `;` and then classified as blank,
    `#key value` metadata, `label:` or an instruction.
  - The image starts with the bootstrap `CALL entry; END`.
  - Labels map to the index of the next instruction.
  - `Assemble` is the loader loop, proved equal to the function `LoadSource`.
- **Interpret** (`interpret.dfy`) models `runProgram`, `internalJMP`,
  `saveStack`, `loadStack` and `InstrSet`.
  - `Exec` is one iteration of the interpreter loop, as a function of the
    machine state. It hands the variable, arithmetic, stack, compare and
    conditional-jump opcodes to one function per group (`VarExec`,
    `ArithExec`, `StackExec`, `CmpExec`, `CondJumpExec`).
  - `Run` iterates it under a fuel bound; `Proceed` continues a run after a step.
  - The `Machine` class performs the same step in place. Its `Step` method is
    proved equal to `Exec`, each per-group method equal to its group's function,
    and its `RunProgram` method equal to `Run`.
- **Errors** (`errors.dfy`) holds the instruction record and the five runtime
  error kinds of `Errors.ts`: out of memory, unallocated heap access,
  instruction not found, label not found and native not found.

## Model

| member | source | states |
|---|---|---|
| Memory.Initial | src/Memory.ts:26-42 | initHeap: a zero-filled heap of the requested size with one free region [0, size). The free list is valid and holds exactly size bytes, and a byte is free iff 0 <= p < size. Stacks and maps are empty and the flag is 0. |
| Memory.Memory.InitHeap | src/Memory.ts:26-42 | The constructor allocates a fresh buffer, and the record's value equals `Initial(size)`. |
| Memory.Memory.IsSafeHeap | src/Memory.ts:18-25 | Returns true iff the pointer lies in some free region. |
| Memory.Store | src/Memory.ts:44-46 | setMem on the byte buffer: the addressed byte becomes the value mod 256, every other byte is kept, and an address outside the buffer writes nothing. |
| Memory.StoreLoad | src/Memory.ts:44-46 | Reading any address after a store gives the stored value mod 256 at the written in-range address and the old byte elsewhere. |
| Memory.Memory.SetMem | src/Memory.ts:44-46 | The buffer after the call is `Store` of the buffer before. |
| Memory.FirstFit | src/Memory.ts:52-72 | Finds the first region in iteration order with room for the request. It finds none iff every region is too small. |
| Memory.Allocate | src/Memory.ts:48-74 | malloc: -1 with no change for a non-positive size. OutOfMemory(size) with no change iff no region is large enough. Otherwise the size is recorded under the returned pointer. Only the free list and the size table ever change. |
| Memory.MallocFirstFit | src/Memory.ts:52-71 | When region i is the first that fits, malloc returns its start. An exact fit deletes the region; otherwise the region's start moves forward in place. |
| Memory.Memory.Malloc | src/Memory.ts:48-74 | The method's result and new record equal `Allocate` of the old record. |
| Memory.MallocKeepsValid | src/Memory.ts:52-71 | Carving a block out of a valid free list keeps it valid: proper ranges, no overlaps, no adjacent regions. |
| Memory.MallocBytes | src/Memory.ts:52-71 | An allocation removes exactly size bytes from the free total. |
| Memory.MallocTakesBlock | src/Memory.ts:52-71 | The returned block was free before, and afterwards the free bytes are exactly the old ones minus the block. |
| Memory.LastEndingAt | src/Memory.ts:84-91 | The scan's `avaBefore`: the last region in iteration order that ends at ptr. It finds none iff no region ends there. |
| Memory.LastStartingAt | src/Memory.ts:84-91 | The scan's `avaAfter`: the last region that starts at ptr + size. It finds none iff no region starts there. |
| Memory.Carve | src/Memory.ts:53-70 | malloc's update of the chosen region: an exact fit deletes it from the list, otherwise its start moves forward by size in place. |
| Memory.Coalesce | src/Memory.ts:92-111 | free's four cases: a region ending at ptr and one starting at ptr + size are merged into the first and the second is deleted; only one of them is stretched over the block; with neither, the block is appended. |
| Memory.Load | src/Interpret.ts:333-337 | IN's read of `heap[addr]` defaulting to 0: the byte at an in-range address, and 0 outside the buffer. |
| Memory.Release | src/Memory.ts:76-112 | free: nothing changes when the pointer has no recorded size or size 0. Otherwise only the free list changes, through the four coalescing cases. |
| Memory.Memory.Free | src/Memory.ts:76-112 | The new record equals `Release` of the old record. |
| Memory.FreeKeepsValid | src/Memory.ts:92-111 | Returning a block that overlaps no free region keeps a valid free list valid. |
| Memory.FreeBytesGrow | src/Memory.ts:92-111 | Returning a block adds exactly its length to the free total. |
| Memory.FreeUnion | src/Memory.ts:92-111 | After a return, a byte is free iff it was free before or lies in the returned block. |
| Memory.RoundTripExact | src/Memory.ts:53-61 | Freeing an exactly fitted block right after allocating it gives the old regions back, with the freed region moved to the end. |
| Memory.RoundTripShrunk | src/Memory.ts:62-71 | Freeing a block carved from a larger region right after allocating it restores the free list exactly. |
| Memory.RoundTripRegions | src/Memory.ts:48-112 | Allocate then free gives back the same multiset of free regions. |
| Memory.MallocFreeRoundTripExact | src/Memory.ts:53-61 | When the chosen region fits the request exactly, malloc then free of the returned pointer gives back the old free list with that region moved to the end. |
| Memory.MallocFreeRoundTrip | src/Memory.ts:48-112 | On the whole record, malloc then free of the returned pointer restores the free regions as a multiset. Everything else is unchanged except the size table, which keeps the new entry. |
| Memory.MallocFreeRoundTripInPlace | src/Memory.ts:62-110 | When the chosen region was larger than the request, malloc then free restores the free list exactly, order included. |
| Memory.DoubleFreeOverlaps | src/Memory.ts:76-80 | The size entry survives a free, so freeing the same pointer twice is not a no-op. On a 10-byte heap, malloc(4) then free(0) twice leaves [0,10) and [0,4) in the free list, which is no longer valid. |
| Loader.Trim | src/Interpret.ts:79 | `trim`: whitespace removed at both ends. |
| Loader.SplitOn | src/Interpret.ts:73-79 | `split` on one character: the pieces between separators, always at least one. |
| Loader.SplitWs | src/Interpret.ts:85-98 | `split(/\s+/)`: pieces separated by maximal whitespace runs, with an empty first or last piece for a leading or trailing run. |
| Loader.Classify | src/Interpret.ts:79-99 | One line: trimmed, cut at the first `;`, then blank, `#key value` metadata, `label:` or an instruction with missing operands as "", tested in that order. |
| Loader.Build | src/Interpret.ts:77-101 | The loader loop as a function over classified lines: starts from the bootstrap with lineNo 2; metadata and labels go into their maps, and an instruction is appended and advances lineNo. |
| Loader.LoadSource | src/Interpret.ts:68-101 | The image of a source text: `Build` of the classified lines of `split("\n")`. |
| Loader.LoadedShape | src/Interpret.ts:60-101 | The image is `CALL entry; END` followed by the instructions of the instruction lines in order. Blank, metadata and label lines take no slot, and lineNo always equals the number of instructions. |
| Loader.LabelIndex | src/Interpret.ts:92-96 | A label maps to 2 plus the number of instructions before it, and a later duplicate wins. |
| Loader.LabelsDeclared | src/Interpret.ts:92-96 | A name is in the label table iff some line declares it as a label. |
| Loader.CommentedLabelIsCode | src/Interpret.ts:79-99 | The label test runs on the comment-stripped but untrimmed text, so `l: ;c` is an instruction line whose opcode is `l:`. |
| Loader.CommentedLabel | src/Interpret.ts:79-96 | `l:;c` is the label `l`. |
| Loader.Assemble | src/Interpret.ts:73-101 | The loader loop returns exactly the instructions, labels and metadata of `LoadSource`. |
| Interpret.DecodeName | src/Interpret.ts:10-40 | Every opcode's name is in InstrSet and decodes back to that opcode. |
| Interpret.NameDecode | src/Interpret.ts:10-40 | A name selects an opcode iff it is in InstrSet, and then it is that opcode's own name. |
| Interpret.Exec | src/Interpret.ts:153-362 | One loop iteration. It halts iff eip holds END, and then nothing changes. It raises InstrNotFound iff eip is out of range. It never changes the free list, the size table or the heap length. It keeps the label stack and the saved-map stack the same depth, and keeps the flag within -1..1. |
| Interpret.Get | src/Interpret.ts:186-188 | `varMap[k] or 0`: the variable's value when set, and 0 when it is unset. |
| Interpret.IsDigits | src/Interpret.ts:152 | The literal test `^[0-9]+$`: a non-empty string of decimal digits only. |
| Interpret.DecimalValue | src/Interpret.ts:171 | `parseInt` of a digit string: its decimal value. |
| Interpret.Operand | src/Interpret.ts:170-174 | The second operand of MOV (and of CMP, lines 341-345): the literal's value iff it is all digits, otherwise the named variable or 0. |
| Interpret.Registered | src/Natives.ts:17-20 | The keys of the native table: each registered name prefixed with `native_`. |
| Interpret.ReturnVar | src/Interpret.ts:130-131 | The return variable of a callee label: `*` followed by the label without its first character. |
| Interpret.KeepReturn | src/Interpret.ts:132-137 | The installed caller map: the saved map with the return variable set to the callee's value, or unset when the callee never set it. |
| Interpret.VarExec | src/Interpret.ts:165-176 | DEL unsets a1; MOV stores a2's literal iff it is all digits, else a2's value or 0; IN (lines 333-337) stores the byte at a2's address, or 0; then eip advances. |
| Interpret.CmpExec | src/Interpret.ts:338-357 | CMP sets the flag to 1, 0 or -1 as `a1 or 0` is above, equal to or below the second operand, then eip advances. |
| Interpret.ArithExec | src/Interpret.ts:185-251 | ADD, SUB and MUL store `(a1 or 0) op (a2 or 0)` into a1; AND, OR (as coded), XOR and NOT store 0 or 1; DIV (lines 203-208) is not in this group; then eip advances. |
| Interpret.StackExec | src/Interpret.ts:264-279 | PUSH and PUSH0 append `a1 or 0` to their stack; POP and POP0 move the top of their stack into a1 (0 when empty) and drop it; then eip advances. |
| Interpret.CondJumpExec | src/Interpret.ts:280-321 | Each conditional jump jumps through internalJMP when the flag satisfies its condition (=0, !=0, >=0, >0, <=0, <0), and otherwise advances. |
| Interpret.JumpTo | src/Interpret.ts:144-151 | internalJMP: eip becomes the label's index, or LabelNotFound(instr) is raised with nothing changed. |
| Interpret.PushFrame | src/Interpret.ts:258-261 | CALL's three pushes: the label onto the call stack, a copy of the variables onto the saved maps (saveStack) and eip + 1 onto the stack. |
| Interpret.PopFrame | src/Interpret.ts:123-138 | loadStack: with no saved map nothing changes; otherwise the last map is popped and installed, and when a non-empty label is popped the return variable `*` + label[1..] keeps the callee's value (or is unset). |
| Interpret.PopReturn | src/Interpret.ts:255 | RET's new eip: the popped value, or -1 for an empty stack or a popped 0. |
| Interpret.Run | src/Interpret.ts:153-362 | The loop as a function: up to fuel steps of `Exec`, stopping at the first step whose outcome is not Running. |
| Interpret.SkipStep | src/Interpret.ts:181-184 | NOP and any name outside InstrSet only advance eip (the default arm is at lines 358-360). |
| Interpret.ArithmeticStep | src/Interpret.ts:185-202 | ADD, SUB and MUL store `(a1 or 0) op (a2 or 0)` into a1 and advance. No other variable and nothing else changes. |
| Interpret.BooleanStep | src/Interpret.ts:209-251 | AND, OR, XOR and NOT store exactly 0 or 1 into a1. AND gives 1 iff both operands are non-zero, XOR iff exactly one is, and NOT iff the operand is zero. OR, as coded, gives 1 iff both are non-zero. |
| Interpret.OrIsAnd | src/Interpret.ts:209-230 | Replacing an OR by an AND changes no step. |
| Interpret.MovStep | src/Interpret.ts:169-176 | MOV takes a2 as a literal iff it is all digits, so such a value is never negative and `-5` names a variable. Otherwise it copies variable a2, with 0 when unset. Only a1 and eip change. |
| Interpret.DelStep | src/Interpret.ts:165-168 | DEL removes a1, so a later read gives 0. Every other variable is kept, and only the variable map and eip change. |
| Interpret.CmpStep | src/Interpret.ts:338-357 | CMP sets the flag to 1, 0 or -1 exactly when a1 >, = or < the second operand. The second operand is a literal or a variable, as for MOV. |
| Interpret.CondJumpStep | src/Interpret.ts:280-321 | A conditional jump with its condition false advances. With the condition true it jumps to the label, or raises LabelNotFound without moving when the label is missing. Nothing but eip changes. |
| Interpret.JmpStep | src/Interpret.ts:144-151 | JMP always jumps to the label or raises LabelNotFound (lines 162-164). |
| Interpret.CmpThenJump | src/Interpret.ts:280-357 | `CMP a b` followed by a conditional jump branches iff the two values stand in that jump's relation (=, !=, >=, >, <=, <). |
| Interpret.PushPop | src/Interpret.ts:264-271 | PUSH a then POP b sets b to a's value and leaves the stack as it was. |
| Interpret.Push0Pop0 | src/Interpret.ts:272-279 | The same round trip through the second stack, which leaves the first stack alone. |
| Interpret.PushStep | src/Interpret.ts:264-275 | PUSH and PUSH0 append a1's value (0 when unset) to their own stack and change nothing else. |
| Interpret.PopStep | src/Interpret.ts:268-279 | POP and POP0 on a non-empty stack move its last value into a1, drop it from that stack and change nothing else. |
| Interpret.PopEmpty | src/Interpret.ts:268-279 | POP or POP0 on an empty stack stores 0 and advances. |
| Interpret.OutGuard | src/Interpret.ts:322-332 | OUT faults with AccessUnallocatedHeap(addr) iff the heap is guarded, the address variable is set and the address is free. Otherwise it advances, and the new heap is `Store` of the old one: a2's value mod 256 at the address, every other byte kept, and no byte written for an unset address variable or an address outside the heap. |
| Interpret.InStep | src/Interpret.ts:333-337 | IN stores the byte at the address held in a2 into a1, or 0 when a2 is unset or the address is outside the heap. Nothing else changes. |
| Interpret.OutThenIn | src/Interpret.ts:322-337 | A successful OUT to an in-range address followed by IN through the same address variable reads the stored value mod 256. |
| Interpret.IntStep | src/Interpret.ts:177-180 | INT raises INTNotFound iff no native is registered under that name ("native_" + name, Natives.ts:7-20). Otherwise it hands control to the native and advances. |
| Interpret.CallStep | src/Interpret.ts:258-263 | CALL pushes the label, a snapshot of the variables and the return index, then jumps. It raises LabelNotFound after the pushes. |
| Interpret.RetWithoutFrame | src/Interpret.ts:252-257 | RET with no saved frame keeps the variables and the call stack, and returns to the popped index, or to -1 when the stack is empty or holds 0. |
| Interpret.CallRetPair | src/Interpret.ts:116-138 | A RET that finds the stacks as its CALL left them returns to the index after the CALL with the stacks as before the call. The caller's variables come back except the return variable `*` + label[1..], which carries the callee's value or is unset. |
| Interpret.CallRetEmptyLabel | src/Interpret.ts:123-138 | For a CALL of the empty label, a RET that finds the stacks as the CALL left them returns to the index after the CALL with the stacks and the caller's whole variable map restored, since `if (callFun)` skips the return variable (line 129). |
| Interpret.RunKeepsShape | src/Interpret.ts:153-362 | No run allocates or frees heap, resizes the heap or unbalances the label and saved-map stacks. |
| Interpret.RunHaltsAtEnd | src/Interpret.ts:158-160 | A run halts only with eip on an END instruction. |
| Interpret.BootCallsEntry | src/Interpret.ts:60-66 | The first step of a loaded program enters the entry label with return index 1, or raises LabelNotFound iff no line declares that label. |
| Interpret.BootEndHalts | src/Interpret.ts:60-66 | Returning to index 1 of a loaded program halts on the bootstrap END. |
| Interpret.AddThenExit | src/Interpret.ts:169-190 | A program that moves 3 and 4 into variables, adds them and calls the native `exit` reaches that call with 7 in `$exit_arg1`. |
| Interpret.Machine.SaveStack | src/Interpret.ts:116-122 | Pushes a copy of the variable map and changes nothing else. |
| Interpret.Machine.LoadStack | src/Interpret.ts:123-138 | The new state equals `PopFrame` of the old one: pop the snapshot and the label, carry over the return variable, install the snapshot. With no snapshot, nothing changes. |
| Interpret.Machine.InternalJmp | src/Interpret.ts:144-151 | Jumps to the label or reports LabelNotFound, as `JumpTo`. |
| Interpret.Machine.Step | src/Interpret.ts:153-362 | The in-place step's outcome and new state equal `Exec` of the old state. |
| Interpret.Machine.ControlStep | src/Interpret.ts:153-362 | CALL, RET, OUT, END, JMP, INT, DIV, NOP and unknown names perform `Exec` (the END test is at lines 158-160). |
| Interpret.Machine.VarStep | src/Interpret.ts:165-176 | DEL and MOV (and IN, lines 333-337) leave the record equal to `VarExec` of the old state, which is `Exec`'s step for them. |
| Interpret.Machine.Compare | src/Interpret.ts:338-357 | The three independent flag tests leave the record equal to `CmpExec` of the old state, which is `Exec`'s step for CMP. |
| Interpret.Machine.ArithStep | src/Interpret.ts:185-251 | ADD, SUB, MUL, AND, OR, XOR and NOT leave the record equal to `ArithExec` of the old state, which is `Exec`'s step for them. |
| Interpret.Machine.StackStep | src/Interpret.ts:264-279 | PUSH, POP, PUSH0 and POP0 leave the record equal to `StackExec` of the old state, which is `Exec`'s step for them. |
| Interpret.Machine.Call | src/Interpret.ts:258-263 | CALL performs `Exec`. |
| Interpret.Machine.Ret | src/Interpret.ts:252-257 | RET performs `Exec`. |
| Interpret.Machine.CondJmp | src/Interpret.ts:280-321 | The six conditional jumps give the outcome and state of `CondJumpExec`, which is `Exec`'s step for them. |
| Interpret.Machine.OutStep | src/Interpret.ts:322-332 | OUT performs `Exec`, using `isSafeHeap` and `setMem`. |
| Interpret.Machine.RunProgram | src/Interpret.ts:140-363 | Starting from eip 0, the outcome and final state equal `Run` with the given fuel. |
| Interpret.Machine.Resume | src/Interpret.ts:153-362 | The loop from the current eip equals `Run` from the current state. |
| Interpret.LoadProgram | src/Interpret.ts:68-112 | A fresh machine whose code, labels and metadata are those of `LoadSource`. Its memory is `Initial(heapSize)`, its eip is 0 and its call stacks are empty. |

## Left out

- DIV is not interpreted. JavaScript division yields fractions, Infinity and NaN, which integer variables cannot hold. A step on DIV ends with the outcome `Unmodelled` and the state unchanged.
- Native callbacks are host code. INT is modelled up to the lookup: a registered name ends the step with `NativeCall(name)` and eip advanced. What the callback does is not modelled, including the builtins `puts` and `exit` and the loading of native libraries (Natives.ts:21-48).
- Interpret.Machine.RunProgram: the source loop runs until END or an exception. The model bounds it by a fuel count, so a program that never stops is seen only up to that bound.
- Interpret.Run: a run stops at the first INT that finds its native (outcome `NativeCall`) and at the first DIV (outcome `Unmodelled`). The source calls the callback, advances eip and keeps looping (Interpret.ts:177-180), so the model does not follow a program past its first native call, for example a `puts` followed by more code.
- `unsafeHeap` is a parameter. The command-line entry (Pinkie.ts:33) passes no options object, so reading `opts.unsafeHeap` there throws before the guard. The model covers the interpreter as called with an options object.
- `parseInt` of a long digit string loses precision in JavaScript. `DecimalValue` is exact.
- Variable values are JavaScript doubles in the source. ADD, SUB and MUL round above 2^53, MUL can overflow to Infinity, and a later `|| 0` turns NaN into 0. The model's arithmetic is on unbounded integers and exact.
- The variable map is a plain object (`{}`, Memory.ts:32 and Interpret.ts:134). A name such as `constructor` or `toString` therefore reads an inherited value rather than 0. `Get` returns 0 for every name that was never set.
- Whitespace for `trim` and `\s` is the ASCII set (space, tab, LF, CR, VT, FF). Unicode spaces are not treated as whitespace. Strings are sequences of Unicode scalar values, so `ReturnVar` drops one character where `slice(1)` drops one UTF-16 code unit; the two differ for a label that begins with a character outside the Basic Multilingual Plane.
- Saved variable maps are module-level in the source and shared by every program run in the process. The model keeps them per machine.
- The loop's local eip is a field of the machine, so that one step can be a method.
- The size table keeps a pointer's entry after `free` (Memory.ts:76-112). `Memory.DoubleFreeOverlaps` shows the consequence.
- A variable that is present with the value `undefined` is modelled as absent. This happens after RET copies an unset return variable, and every read treats the two the same.
- OUT through an unset address variable raises no error, because `isSafeHeap(undefined)` is false. The buffer keeps the value as an ordinary property named `undefined`, which a later IN through an unset variable reads back; the model drops that property, so such an IN reads 0.
- Heap sizes are natural numbers: a negative size passed to `initHeap` is outside the model.
- Logging (`debug`, `warn`, `info`) and the command-line front end are not modelled.

=== FILE: errors.dfy ===
/** Shared value types of the VM: optional values, results of fallible
    operations, the decoded instruction record and the five fatal error kinds. */
module Errors {

  datatype Option<T> = None | Some(value: T)

  /** Outcome of an operation that either yields a value or raises one of the VM's errors. */
  datatype Result<T> = Ok(value: T) | Err(error: Error)

  /** One instruction of a program image: the opcode text and its two operand
      strings (a missing operand is the empty string). */
  datatype Instr = Instr(instr: string, arg1: string, arg2: string)

  /** The fatal error kinds; each carries the context its message is built from. */
  datatype Error =
    | OutOfMemory(requestBytes: int)
    | AccessUnallocatedHeap(address: int)
    | InstrNotFound(eip: int)
    | LabelNotFound(instr: Instr)
    | INTNotFound(native: string)
}

=== FILE: interpret.dfy ===
/** The execution engine: the per-opcode step of runProgram as a function of
    the machine state, the call-frame protocol (saveStack / loadStack), and a
    Machine class whose methods perform the same step in place. */
module Interpret {
  import opened Errors
  import opened Memory
  import Loader

  /** InstrSet: the opcodes the engine recognises. */
  const InstrSet: set<string> := {
    "MOV", "DEL", "ADD", "SUB", "MUL", "CMP", "AND", "OR", "XOR", "NOT", "DIV",
    "RET", "CALL", "JMP", "PUSH", "PUSH0", "POP", "POP0",
    "JE", "JNE", "JB", "JBE", "JA", "JAE", "INT", "NOP", "END", "OUT", "IN"
  }

  /** The six conditional jumps. */
  predicate IsCondJump(op: Opcode) {
    op.JE? || op.JNE? || op.JAE? || op.JA? || op.JBE? || op.JB?
  }

  /** The opcodes that move a value into a variable. */
  const VarOps: set<Opcode> := {DEL, MOV, IN}

  /** The opcodes that combine two variables into the first. */
  const ArithOps: set<Opcode> := {ADD, SUB, MUL, AND, OR, XOR, NOT}

  /** The opcodes that work on the two value stacks. */
  const StackOps: set<Opcode> := {PUSH, POP, PUSH0, POP0}

  /** The opcodes of InstrSet, and Other for any name outside it. */
  datatype Opcode =
    | MOV | DEL | ADD | SUB | MUL | CMP | AND | OR
    | XOR | NOT | DIV | RET | CALL | JMP | PUSH | PUSH0
    | POP | POP0 | JE | JNE | JB | JBE | JA | JAE
    | INT | NOP | END | OUT | IN | Other

  /** The opcode an instruction name selects. */
  function Decode(name: string): Opcode {
    match name
    case "MOV" => MOV
    case "DEL" => DEL
    case "ADD" => ADD
    case "SUB" => SUB
    case "MUL" => MUL
    case "CMP" => CMP
    case "AND" => AND
    case "OR" => OR
    case "XOR" => XOR
    case "NOT" => NOT
    case "DIV" => DIV
    case "RET" => RET
    case "CALL" => CALL
    case "JMP" => JMP
    case "PUSH" => PUSH
    case "PUSH0" => PUSH0
    case "POP" => POP
    case "POP0" => POP0
    case "JE" => JE
    case "JNE" => JNE
    case "JB" => JB
    case "JBE" => JBE
    case "JA" => JA
    case "JAE" => JAE
    case "INT" => INT
    case "NOP" => NOP
    case "END" => END
    case "OUT" => OUT
    case "IN" => IN
    case _ => Other
  }

  /** The name InstrSet gives an opcode (none for Other). */
  function Name(op: Opcode): string {
    match op
    case MOV => "MOV"
    case DEL => "DEL"
    case ADD => "ADD"
    case SUB => "SUB"
    case MUL => "MUL"
    case CMP => "CMP"
    case AND => "AND"
    case OR => "OR"
    case XOR => "XOR"
    case NOT => "NOT"
    case DIV => "DIV"
    case RET => "RET"
    case CALL => "CALL"
    case JMP => "JMP"
    case PUSH => "PUSH"
    case PUSH0 => "PUSH0"
    case POP => "POP"
    case POP0 => "POP0"
    case JE => "JE"
    case JNE => "JNE"
    case JB => "JB"
    case JBE => "JBE"
    case JA => "JA"
    case JAE => "JAE"
    case INT => "INT"
    case NOP => "NOP"
    case END => "END"
    case OUT => "OUT"
    case IN => "IN"
    case Other => ""
  }

  /** Decoding undoes naming, and every name of InstrSet selects its own opcode. */
  lemma DecodeName(op: Opcode)
    requires op != Other
    ensures Name(op) in InstrSet && Decode(Name(op)) == op
  {
  }

  /** A name selects an opcode iff it is in InstrSet, and then it is that opcode's name. */
  lemma NameDecode(name: string)
    ensures Decode(name) == Other <==> name !in InstrSet
    ensures Decode(name) != Other ==> Name(Decode(name)) == name
  {
  }

  /** The loaded program: instructions and the label table. */
  datatype Executable = Executable(code: seq<Instr>, labels: map<string, int>)

  /** Everything one step reads or writes: the instruction pointer, the memory
      record, the called-label stack and the saved variable maps. */
  datatype MState = MState(
    eip: int,
    mem: MemState,
    callStack: seq<string>,
    savedStacks: seq<map<string, int>>)

  /** How a step ends: keep running, stop at END, hand control to a native
      callback, stop at DIV (not interpreted), or raise an error. */
  datatype Outcome = Running | Halted | NativeCall(name: string) | Unmodelled | Fault(error: Error)

  datatype Transition = Transition(outcome: Outcome, next: MState)

  // ---------------------------------------------------------------------------
  // Operand access

  /** `varMap[k] || 0`: an unset variable reads as 0. */
  function Get(vars: map<string, int>, k: string): int {
    if k in vars then vars[k] else 0
  }

  /** The immediate-value pattern ^[0-9]+$. */
  predicate IsDigits(s: string) {
    |s| > 0 && forall i :: 0 <= i < |s| ==> '0' <= s[i] <= '9'
  }

  /** parseInt of a string of decimal digits. */
  function DecimalValue(s: string): nat
    requires forall i :: 0 <= i < |s| ==> '0' <= s[i] <= '9'
  {
    if s == [] then 0 else 10 * DecimalValue(s[..|s| - 1]) + (s[|s| - 1] as int - '0' as int)
  }

  /** The second operand of MOV and CMP: a literal iff it is all digits, else a variable. */
  function Operand(vars: map<string, int>, a: string): int {
    if IsDigits(a) then DecimalValue(a) else Get(vars, a)
  }

  /** The comparison flag value for which a conditional jump is taken. */
  predicate Taken(op: Opcode, c: int) {
    match op
    case JE => c == 0
    case JNE => c != 0
    case JAE => c >= 0
    case JA => c > 0
    case JBE => c <= 0
    case JB => c < 0
    case _ => false
  }

  /** Reference reading of a conditional jump after `CMP a b`: the relation
      between the two compared values under which it branches. */
  predicate Holds(op: Opcode, v1: int, v2: int) {
    match op
    case JE => v1 == v2
    case JNE => v1 != v2
    case JAE => v1 >= v2
    case JA => v1 > v2
    case JBE => v1 <= v2
    case JB => v1 < v2
    case _ => false
  }

  /** Native names as registered: addNativeFunction stores each under "native_" + name. */
  function Registered(natives: set<string>): set<string> {
    set n | n in natives :: "native_" + n
  }

  // ---------------------------------------------------------------------------
  // Small state updates

  function Advance(s: MState): MState {
    s.(eip := s.eip + 1)
  }

  function SetVar(s: MState, name: string, v: int): MState {
    s.(mem := s.mem.(varMap := s.mem.varMap[name := v]))
  }

  /** internalJMP: jump to the label named by the first operand. */
  function JumpTo(x: Executable, s: MState, ins: Instr): Transition {
    if ins.arg1 in x.labels then Transition(Running, s.(eip := x.labels[ins.arg1]))
    else Transition(Fault(LabelNotFound(ins)), s)
  }

  /** The return variable of a callee: `*` followed by its label without the first character. */
  function ReturnVar(callee: string): string
    requires callee != ""
  {
    "*" + callee[1..]
  }

  /** The restored caller map, with the return variable taken from the callee
      (JS stores `undefined` there when the callee never set it, which reads like an unset key). */
  function KeepReturn(caller: map<string, int>, ret: string, callee: map<string, int>): map<string, int> {
    if ret in callee then caller[ret := callee[ret]] else caller - {ret}
  }

  /** saveStack, together with the other two pushes CALL makes before jumping. */
  function PushFrame(s: MState, callee: string): MState {
    s.(callStack := s.callStack + [callee],
       savedStacks := s.savedStacks + [s.mem.varMap],
       mem := s.mem.(stack := s.mem.stack + [s.eip + 1]))
  }

  /** loadStack: restore the last saved map, keeping the callee's return variable. */
  function PopFrame(s: MState): MState {
    if s.savedStacks == [] then s
    else
      var o := s.savedStacks[|s.savedStacks| - 1];
      var saved := s.savedStacks[..|s.savedStacks| - 1];
      if s.callStack == [] then s.(savedStacks := saved, mem := s.mem.(varMap := o))
      else
        var f := s.callStack[|s.callStack| - 1];
        var restored := if f == "" then o else KeepReturn(o, ReturnVar(f), s.mem.varMap);
        s.(savedStacks := saved,
           callStack := s.callStack[..|s.callStack| - 1],
           mem := s.mem.(varMap := restored))
  }

  /** The RET step after loadStack: `eip = stack.pop() || -1`. */
  function PopReturn(s: MState): MState {
    var st := s.mem.stack;
    if st == [] then s.(eip := -1)
    else
      var top := st[|st| - 1];
      s.(eip := if top == 0 then -1 else top, mem := s.mem.(stack := st[..|st| - 1]))
  }

  // ---------------------------------------------------------------------------
  // One step

  /** DEL, MOV and IN: unset a variable or move a value into it, then advance. */
  function VarExec(s: MState, ins: Instr): MState
    requires Decode(ins.instr) in VarOps
  {
    var vars := s.mem.varMap;
    match Decode(ins.instr)
    case DEL => Advance(s.(mem := s.mem.(varMap := vars - {ins.arg1})))
    case MOV => Advance(SetVar(s, ins.arg1, Operand(vars, ins.arg2)))
    case IN =>
      Advance(SetVar(s, ins.arg1, if ins.arg2 in vars then Load(s.mem.heap, vars[ins.arg2]) else 0))
    case _ => s
  }

  /** CMP: set the flag to 1, 0 or -1 as `arg1 || 0` is above, equal to or below
      the second operand, then advance. */
  function CmpExec(s: MState, ins: Instr): MState {
    var i1, v2 := Get(s.mem.varMap, ins.arg1), Operand(s.mem.varMap, ins.arg2);
    Advance(s.(mem := s.mem.(cmpResult := if i1 > v2 then 1 else if i1 == v2 then 0 else -1)))
  }

  /** ADD, SUB, MUL, AND, OR, XOR and NOT: `arg1 := f(arg1 || 0, arg2 || 0)`, then advance. */
  function ArithExec(s: MState, ins: Instr): MState
    requires Decode(ins.instr) in ArithOps
  {
    var i1, i2 := Get(s.mem.varMap, ins.arg1), Get(s.mem.varMap, ins.arg2);
    var r :=
      match Decode(ins.instr)
      case ADD => i1 + i2
      case SUB => i1 - i2
      case MUL => i1 * i2
      case AND => if i1 != 0 && i2 != 0 then 1 else 0
      case OR => if i1 == 0 || i2 == 0 then 0 else 1
      case XOR => if (i1 == 0 && i2 != 0) || (i1 != 0 && i2 == 0) then 1 else 0
      case NOT => if i1 != 0 then 0 else 1
      case _ => 0;
    Advance(SetVar(s, ins.arg1, r))
  }

  /** PUSH, POP, PUSH0 and POP0: move a value between a variable and one of the
      two stacks (popping an empty stack gives 0), then advance. */
  function StackExec(s: MState, ins: Instr): MState
    requires Decode(ins.instr) in StackOps
  {
    var vars := s.mem.varMap;
    var i1 := Get(vars, ins.arg1);
    match Decode(ins.instr)
    case PUSH => Advance(s.(mem := s.mem.(stack := s.mem.stack + [i1])))
    case POP =>
      var st := s.mem.stack;
      Advance(s.(mem := s.mem.(
        varMap := vars[ins.arg1 := if st == [] then 0 else st[|st| - 1]],
        stack := if st == [] then [] else st[..|st| - 1])))
    case PUSH0 => Advance(s.(mem := s.mem.(stack0 := s.mem.stack0 + [i1])))
    case POP0 =>
      var st := s.mem.stack0;
      Advance(s.(mem := s.mem.(
        varMap := vars[ins.arg1 := if st == [] then 0 else st[|st| - 1]],
        stack0 := if st == [] then [] else st[..|st| - 1])))
    case _ => s
  }

  /** A conditional jump: jump when the flag satisfies the opcode's condition, else advance. */
  function CondJumpExec(x: Executable, s: MState, ins: Instr): Transition {
    if Taken(Decode(ins.instr), s.mem.cmpResult) then JumpTo(x, s, ins) else Transition(Running, Advance(s))
  }

  /** One iteration of runProgram's loop: fetch the instruction at eip and execute it. */
  function Exec(x: Executable, natives: set<string>, unsafeHeap: bool, s: MState): (t: Transition)
    ensures t.outcome == Halted <==> 0 <= s.eip < |x.code| && Decode(x.code[s.eip].instr) == END
    ensures t.outcome == Halted ==> t.next == s
    ensures t.outcome == Fault(InstrNotFound(s.eip)) <==> !(0 <= s.eip < |x.code|)
    ensures t.next.mem.heapFree == s.mem.heapFree && t.next.mem.ptrSize == s.mem.ptrSize
    ensures |t.next.mem.heap| == |s.mem.heap|
    ensures |s.callStack| == |s.savedStacks| ==> |t.next.callStack| == |t.next.savedStacks|
    ensures -1 <= s.mem.cmpResult <= 1 ==> -1 <= t.next.mem.cmpResult <= 1
  {
    if !(0 <= s.eip < |x.code|) then Transition(Fault(InstrNotFound(s.eip)), s)
    else
      var ins := x.code[s.eip];
      var vars := s.mem.varMap;
      match Decode(ins.instr)
      case END => Transition(Halted, s)
      case JMP => JumpTo(x, s, ins)
      case DEL | MOV | IN => Transition(Running, VarExec(s, ins))
      case CMP => Transition(Running, CmpExec(s, ins))
      case ADD | SUB | MUL | AND | OR | XOR | NOT => Transition(Running, ArithExec(s, ins))
      case PUSH | POP | PUSH0 | POP0 => Transition(Running, StackExec(s, ins))
      case JE | JNE | JAE | JA | JBE | JB => CondJumpExec(x, s, ins)
      case INT =>
        if ins.arg1 in Registered(natives) then Transition(NativeCall(ins.arg1), Advance(s))
        else Transition(Fault(INTNotFound(ins.arg1)), s)
      case NOP => Transition(Running, Advance(s))
      case DIV => Transition(Unmodelled, s)
      case RET => Transition(Running, PopReturn(PopFrame(s)))
      case CALL => JumpTo(x, PushFrame(s, ins.arg1), ins)
      case OUT =>
        if ins.arg1 !in vars then
          // the address is `undefined`: isSafeHeap finds no region and no byte is written
          Transition(Running, Advance(s))
        else if !unsafeHeap && InFree(s.mem.heapFree, vars[ins.arg1]) then
          Transition(Fault(AccessUnallocatedHeap(vars[ins.arg1])), s)
        else
          Transition(Running, Advance(s.(mem := s.mem.(heap := Store(s.mem.heap, vars[ins.arg1], Get(vars, ins.arg2))))))
      case Other => Transition(Running, Advance(s))
  }

  /** Up to fuel iterations of runProgram's loop, stopping at the first step
      that does not end in Running. */
  function Run(x: Executable, natives: set<string>, unsafeHeap: bool, s: MState, fuel: nat): Transition
    decreases fuel, 1
  {
    if fuel == 0 then Transition(Running, s)
    else Proceed(x, natives, unsafeHeap, Exec(x, natives, unsafeHeap, s), fuel - 1)
  }

  /** The rest of a run after a step ending in t, with fuel steps left. */
  function Proceed(x: Executable, natives: set<string>, unsafeHeap: bool, t: Transition, fuel: nat): Transition
    decreases fuel, 2
  {
    if t.outcome == Running then Run(x, natives, unsafeHeap, t.next, fuel) else t
  }

  // ---------------------------------------------------------------------------
  // Properties of single steps

  /** NOP and opcodes outside InstrSet only advance eip. */
  lemma SkipStep(x: Executable, natives: set<string>, unsafeHeap: bool, s: MState)
    requires 0 <= s.eip < |x.code|
    requires Decode(x.code[s.eip].instr) == NOP || Decode(x.code[s.eip].instr) == Other
    ensures Exec(x, natives, unsafeHeap, s) == Transition(Running, s.(eip := s.eip + 1))
  {
  }

  /** ADD, SUB and MUL write `(arg1 || 0) op (arg2 || 0)` into arg1 and change nothing else. */
  lemma ArithmeticStep(x: Executable, natives: set<string>, unsafeHeap: bool, s: MState)
    requires 0 <= s.eip < |x.code| && Decode(x.code[s.eip].instr) in {ADD, SUB, MUL}
    ensures var ins := x.code[s.eip];
            var a, b := Get(s.mem.varMap, ins.arg1), Get(s.mem.varMap, ins.arg2);
            var t := Exec(x, natives, unsafeHeap, s);
            t.outcome == Running
            && t.next == s.(eip := s.eip + 1, mem := s.mem.(varMap := t.next.mem.varMap))
            && t.next.mem.varMap.Keys == s.mem.varMap.Keys + {ins.arg1}
            && (forall k :: k != ins.arg1 ==> Get(t.next.mem.varMap, k) == Get(s.mem.varMap, k))
            && Get(t.next.mem.varMap, ins.arg1) ==
               (if Decode(ins.instr) == ADD then a + b else if Decode(ins.instr) == SUB then a - b else a * b)
  {
  }

  /** AND, OR, XOR and NOT write exactly 0 or 1 by the truth of their operands;
      OR, as coded, writes 1 only when both operands are non-zero. */
  lemma BooleanStep(x: Executable, natives: set<string>, unsafeHeap: bool, s: MState)
    requires 0 <= s.eip < |x.code| && Decode(x.code[s.eip].instr) in {AND, OR, XOR, NOT}
    ensures var ins := x.code[s.eip];
            var p, q := Get(s.mem.varMap, ins.arg1) != 0, Get(s.mem.varMap, ins.arg2) != 0;
            var t := Exec(x, natives, unsafeHeap, s);
            var r := Get(t.next.mem.varMap, ins.arg1);
            t.outcome == Running
            && t.next == s.(eip := s.eip + 1, mem := s.mem.(varMap := s.mem.varMap[ins.arg1 := r]))
            && (r == 0 || r == 1)
            && (Decode(ins.instr) == AND ==> (r == 1 <==> p && q))
            && (Decode(ins.instr) == OR ==> (r == 1 <==> p && q))
            && (Decode(ins.instr) == XOR ==> (r == 1 <==> p != q))
            && (Decode(ins.instr) == NOT ==> (r == 1 <==> !p))
  {
  }

  /** OR behaves exactly like AND: replacing one by the other changes no step. */
  lemma OrIsAnd(x: Executable, natives: set<string>, unsafeHeap: bool, s: MState)
    requires 0 <= s.eip < |x.code| && Decode(x.code[s.eip].instr) == OR
    ensures var ins := x.code[s.eip];
            var y := x.(code := x.code[s.eip := ins.(instr := "AND")]);
            Exec(x, natives, unsafeHeap, s) == Exec(y, natives, unsafeHeap, s)
  {
  }

  /** MOV takes its second operand as a literal iff it is all digits (so `-5`
      names a variable), otherwise reads that variable with default 0. */
  lemma MovStep(x: Executable, natives: set<string>, unsafeHeap: bool, s: MState)
    requires 0 <= s.eip < |x.code| && Decode(x.code[s.eip].instr) == MOV
    ensures var ins := x.code[s.eip];
            var t := Exec(x, natives, unsafeHeap, s);
            t.outcome == Running
            && t.next == s.(eip := s.eip + 1, mem := s.mem.(varMap := t.next.mem.varMap))
            && t.next.mem.varMap.Keys == s.mem.varMap.Keys + {ins.arg1}
            && (forall k :: k != ins.arg1 ==> Get(t.next.mem.varMap, k) == Get(s.mem.varMap, k))
            && (IsDigits(ins.arg2) ==> Get(t.next.mem.varMap, ins.arg1) == DecimalValue(ins.arg2))
            && (IsDigits(ins.arg2) ==> Get(t.next.mem.varMap, ins.arg1) >= 0)
            && (!IsDigits(ins.arg2) ==> Get(t.next.mem.varMap, ins.arg1) == Get(s.mem.varMap, ins.arg2))
            && (ins.arg2 != "" && ins.arg2[0] == '-' ==> !IsDigits(ins.arg2))
  {
  }

  /** DEL removes the variable, so a later read gives 0. */
  lemma DelStep(x: Executable, natives: set<string>, unsafeHeap: bool, s: MState)
    requires 0 <= s.eip < |x.code| && Decode(x.code[s.eip].instr) == DEL
    ensures var ins := x.code[s.eip];
            var t := Exec(x, natives, unsafeHeap, s);
            t.outcome == Running
            && t.next == s.(eip := s.eip + 1, mem := s.mem.(varMap := t.next.mem.varMap))
            && ins.arg1 !in t.next.mem.varMap && Get(t.next.mem.varMap, ins.arg1) == 0
            && t.next.mem.varMap.Keys == s.mem.varMap.Keys - {ins.arg1}
            && (forall k :: k != ins.arg1 ==> Get(t.next.mem.varMap, k) == Get(s.mem.varMap, k))
  {
  }

  /** CMP sets the flag to exactly -1, 0 or 1 by the order of its operands. */
  lemma CmpStep(x: Executable, natives: set<string>, unsafeHeap: bool, s: MState)
    requires 0 <= s.eip < |x.code| && Decode(x.code[s.eip].instr) == CMP
    ensures var ins := x.code[s.eip];
            var v1, v2 := Get(s.mem.varMap, ins.arg1), Operand(s.mem.varMap, ins.arg2);
            var t := Exec(x, natives, unsafeHeap, s);
            var c := t.next.mem.cmpResult;
            t.outcome == Running
            && t.next == s.(eip := s.eip + 1, mem := s.mem.(cmpResult := c))
            && (c == -1 || c == 0 || c == 1)
            && (c == 1 <==> v1 > v2) && (c == 0 <==> v1 == v2) && (c == -1 <==> v1 < v2)
  {
  }

  /** A conditional jump branches iff the flag satisfies its condition, a
      taken jump to a missing label raises LabelNotFound, and nothing but eip changes. */
  lemma CondJumpStep(x: Executable, natives: set<string>, unsafeHeap: bool, s: MState)
    requires 0 <= s.eip < |x.code| && IsCondJump(Decode(x.code[s.eip].instr))
    ensures var ins := x.code[s.eip];
            var t := Exec(x, natives, unsafeHeap, s);
            t.next == s.(eip := t.next.eip)
            && (!Taken(Decode(ins.instr), s.mem.cmpResult) ==> t == Transition(Running, s.(eip := s.eip + 1)))
            && (Taken(Decode(ins.instr), s.mem.cmpResult) && ins.arg1 in x.labels ==>
                  t == Transition(Running, s.(eip := x.labels[ins.arg1])))
            && (Taken(Decode(ins.instr), s.mem.cmpResult) && ins.arg1 !in x.labels ==>
                  t == Transition(Fault(LabelNotFound(ins)), s))
  {
  }

  /** JMP always jumps. */
  lemma JmpStep(x: Executable, natives: set<string>, unsafeHeap: bool, s: MState)
    requires 0 <= s.eip < |x.code| && Decode(x.code[s.eip].instr) == JMP
    ensures var ins := x.code[s.eip];
            Exec(x, natives, unsafeHeap, s) ==
              if ins.arg1 in x.labels then Transition(Running, s.(eip := x.labels[ins.arg1]))
              else Transition(Fault(LabelNotFound(ins)), s)
  {
  }

  /** `CMP a b` followed by a conditional jump branches exactly when the
      compared values stand in the jump's relation. */
  lemma CmpThenJump(x: Executable, natives: set<string>, unsafeHeap: bool, s: MState)
    requires 0 <= s.eip && s.eip + 1 < |x.code|
    requires Decode(x.code[s.eip].instr) == CMP && IsCondJump(Decode(x.code[s.eip + 1].instr))
    requires x.code[s.eip + 1].arg1 in x.labels
    ensures var cmp, jmp := x.code[s.eip], x.code[s.eip + 1];
            var v1, v2 := Get(s.mem.varMap, cmp.arg1), Operand(s.mem.varMap, cmp.arg2);
            var t := Exec(x, natives, unsafeHeap, Exec(x, natives, unsafeHeap, s).next);
            t.outcome == Running
            && t.next.eip == if Holds(Decode(jmp.instr), v1, v2) then x.labels[jmp.arg1] else s.eip + 2
  {
    var s1 := Exec(x, natives, unsafeHeap, s).next;
    CmpStep(x, natives, unsafeHeap, s);
    CondJumpStep(x, natives, unsafeHeap, s1);
  }

  /** PUSH and PUSH0 append the first operand's value (0 when unset) to their
      own stack and change nothing else. */
  lemma PushStep(x: Executable, natives: set<string>, unsafeHeap: bool, s: MState)
    requires 0 <= s.eip < |x.code| && Decode(x.code[s.eip].instr) in {PUSH, PUSH0}
    ensures var ins := x.code[s.eip];
            var v := Get(s.mem.varMap, ins.arg1);
            Exec(x, natives, unsafeHeap, s) == Transition(Running, s.(eip := s.eip + 1, mem :=
              if Decode(ins.instr) == PUSH then s.mem.(stack := s.mem.stack + [v])
              else s.mem.(stack0 := s.mem.stack0 + [v])))
  {
  }

  /** POP and POP0 on a non-empty stack move its last value into the first
      operand, drop it from that stack and change nothing else. */
  lemma PopStep(x: Executable, natives: set<string>, unsafeHeap: bool, s: MState)
    requires 0 <= s.eip < |x.code| && Decode(x.code[s.eip].instr) in {POP, POP0}
    ensures var ins := x.code[s.eip];
            var st := if Decode(ins.instr) == POP then s.mem.stack else s.mem.stack0;
            st != [] ==>
              var m := s.mem.(varMap := s.mem.varMap[ins.arg1 := st[|st| - 1]]);
              Exec(x, natives, unsafeHeap, s) == Transition(Running, s.(eip := s.eip + 1, mem :=
                if Decode(ins.instr) == POP then m.(stack := st[..|st| - 1])
                else m.(stack0 := st[..|st| - 1])))
  {
  }

  /** PUSH then POP moves a value between variables through the stack and
      leaves the stack as it was (LIFO). */
  lemma PushPop(x: Executable, natives: set<string>, unsafeHeap: bool, s: MState)
    requires 0 <= s.eip && s.eip + 1 < |x.code|
    requires Decode(x.code[s.eip].instr) == PUSH && Decode(x.code[s.eip + 1].instr) == POP
    ensures var t := Exec(x, natives, unsafeHeap, Exec(x, natives, unsafeHeap, s).next);
            t.outcome == Running && t.next.eip == s.eip + 2
            && t.next.mem.stack == s.mem.stack
            && t.next.mem.varMap == s.mem.varMap[x.code[s.eip + 1].arg1 := Get(s.mem.varMap, x.code[s.eip].arg1)]
  {
    var v := Get(s.mem.varMap, x.code[s.eip].arg1);
    var s1 := s.(eip := s.eip + 1, mem := s.mem.(stack := s.mem.stack + [v]));
    PushStep(x, natives, unsafeHeap, s);
    PopStep(x, natives, unsafeHeap, s1);
    assert (s.mem.stack + [v])[..|s.mem.stack|] == s.mem.stack;
  }

  /** PUSH0 then POP0 does the same through the second stack, leaving the first alone. */
  lemma Push0Pop0(x: Executable, natives: set<string>, unsafeHeap: bool, s: MState)
    requires 0 <= s.eip && s.eip + 1 < |x.code|
    requires Decode(x.code[s.eip].instr) == PUSH0 && Decode(x.code[s.eip + 1].instr) == POP0
    ensures var t := Exec(x, natives, unsafeHeap, Exec(x, natives, unsafeHeap, s).next);
            t.outcome == Running && t.next.eip == s.eip + 2
            && t.next.mem.stack0 == s.mem.stack0 && t.next.mem.stack == s.mem.stack
            && t.next.mem.varMap == s.mem.varMap[x.code[s.eip + 1].arg1 := Get(s.mem.varMap, x.code[s.eip].arg1)]
  {
    var v := Get(s.mem.varMap, x.code[s.eip].arg1);
    var s1 := s.(eip := s.eip + 1, mem := s.mem.(stack0 := s.mem.stack0 + [v]));
    PushStep(x, natives, unsafeHeap, s);
    PopStep(x, natives, unsafeHeap, s1);
    assert (s.mem.stack0 + [v])[..|s.mem.stack0|] == s.mem.stack0;
  }

  /** Popping an empty stack stores 0 instead of failing. */
  lemma PopEmpty(x: Executable, natives: set<string>, unsafeHeap: bool, s: MState)
    requires 0 <= s.eip < |x.code|
    requires (Decode(x.code[s.eip].instr) == POP && s.mem.stack == [])
          || (Decode(x.code[s.eip].instr) == POP0 && s.mem.stack0 == [])
    ensures var t := Exec(x, natives, unsafeHeap, s);
            t == Transition(Running, s.(eip := s.eip + 1,
                                        mem := s.mem.(varMap := s.mem.varMap[x.code[s.eip].arg1 := 0])))
  {
  }

  /** OUT is refused iff the heap is guarded and the address is a free byte;
      otherwise it stores the second operand's low byte at the address (nothing
      for an unset address variable or an address outside the heap). */
  lemma OutGuard(x: Executable, natives: set<string>, unsafeHeap: bool, s: MState)
    requires 0 <= s.eip < |x.code| && Decode(x.code[s.eip].instr) == OUT
    ensures var ins := x.code[s.eip];
            var t := Exec(x, natives, unsafeHeap, s);
            (t.outcome.Fault? <==> !unsafeHeap && ins.arg1 in s.mem.varMap
                                   && InFree(s.mem.heapFree, s.mem.varMap[ins.arg1]))
            && (t.outcome.Fault? ==> t == Transition(Fault(AccessUnallocatedHeap(s.mem.varMap[ins.arg1])), s))
            && (!t.outcome.Fault? ==> t.outcome == Running && t.next == s.(eip := s.eip + 1, mem := t.next.mem)
                                      && t.next.mem == s.mem.(heap := t.next.mem.heap)
                                      && t.next.mem.heap == if ins.arg1 in s.mem.varMap
                                           then Store(s.mem.heap, s.mem.varMap[ins.arg1], Get(s.mem.varMap, ins.arg2))
                                           else s.mem.heap)
  {
  }

  /** IN stores into the first operand the byte at the address held in the
      second, or 0 when that variable is unset or the address is outside the heap. */
  lemma InStep(x: Executable, natives: set<string>, unsafeHeap: bool, s: MState)
    requires 0 <= s.eip < |x.code| && Decode(x.code[s.eip].instr) == IN
    ensures var ins := x.code[s.eip];
            var vars := s.mem.varMap;
            var v := if ins.arg2 in vars && 0 <= vars[ins.arg2] < |s.mem.heap| then s.mem.heap[vars[ins.arg2]] as int else 0;
            Exec(x, natives, unsafeHeap, s)
              == Transition(Running, s.(eip := s.eip + 1, mem := s.mem.(varMap := vars[ins.arg1 := v])))
  {
  }

  /** A successful OUT to an in-range address followed by IN from the same
      address variable reads back the stored value modulo 256; IN itself is never refused. */
  lemma OutThenIn(x: Executable, natives: set<string>, unsafeHeap: bool, s: MState)
    requires 0 <= s.eip && s.eip + 1 < |x.code|
    requires Decode(x.code[s.eip].instr) == OUT && Decode(x.code[s.eip + 1].instr) == IN
    requires x.code[s.eip + 1].arg2 == x.code[s.eip].arg1
    requires x.code[s.eip].arg1 in s.mem.varMap
    requires 0 <= s.mem.varMap[x.code[s.eip].arg1] < |s.mem.heap|
    requires Exec(x, natives, unsafeHeap, s).outcome == Running
    ensures var t := Exec(x, natives, unsafeHeap, Exec(x, natives, unsafeHeap, s).next);
            t.outcome == Running && t.next.eip == s.eip + 2
            && Get(t.next.mem.varMap, x.code[s.eip + 1].arg1) == Get(s.mem.varMap, x.code[s.eip].arg2) % 256
  {
    var addr := s.mem.varMap[x.code[s.eip].arg1];
    var h := Store(s.mem.heap, addr, Get(s.mem.varMap, x.code[s.eip].arg2));
    var s1 := s.(eip := s.eip + 1, mem := s.mem.(heap := h));
    assert Exec(x, natives, unsafeHeap, s).next == s1;
    InStep(x, natives, unsafeHeap, s1);
  }

  /** INT raises INTNotFound unless the name is registered; otherwise control
      passes to the native callback and eip advances. */
  lemma IntStep(x: Executable, natives: set<string>, unsafeHeap: bool, s: MState)
    requires 0 <= s.eip < |x.code| && Decode(x.code[s.eip].instr) == INT
    ensures var name := x.code[s.eip].arg1;
            var t := Exec(x, natives, unsafeHeap, s);
            (t.outcome == Fault(INTNotFound(name)) <==> !exists n :: n in natives && name == "native_" + n)
            && (t.outcome != Fault(INTNotFound(name)) ==>
                  t == Transition(NativeCall(name), s.(eip := s.eip + 1)))
  {
  }

  // ---------------------------------------------------------------------------
  // The call-frame protocol

  /** CALL at index i pushes the label, a snapshot of the variables and i+1,
      then jumps (raising LabelNotFound after the pushes if the label is missing). */
  lemma CallStep(x: Executable, natives: set<string>, unsafeHeap: bool, s: MState)
    requires 0 <= s.eip < |x.code| && Decode(x.code[s.eip].instr) == CALL
    ensures var f := x.code[s.eip].arg1;
            var t := Exec(x, natives, unsafeHeap, s);
            t.next.callStack == s.callStack + [f]
            && t.next.savedStacks == s.savedStacks + [s.mem.varMap]
            && t.next.mem == s.mem.(stack := s.mem.stack + [s.eip + 1])
            && (f in x.labels ==> t.outcome == Running && t.next.eip == x.labels[f])
            && (f !in x.labels ==> t.outcome == Fault(LabelNotFound(x.code[s.eip])) && t.next.eip == s.eip)
  {
  }

  /** RET with no saved frame leaves the variables and the call stack alone
      and returns to the popped stack value, or to -1. */
  lemma RetWithoutFrame(x: Executable, natives: set<string>, unsafeHeap: bool, s: MState)
    requires 0 <= s.eip < |x.code| && Decode(x.code[s.eip].instr) == RET && s.savedStacks == []
    ensures var t := Exec(x, natives, unsafeHeap, s);
            var st := s.mem.stack;
            t.outcome == Running
            && t.next.mem.varMap == s.mem.varMap && t.next.callStack == s.callStack
            && t.next.eip == (if st == [] || st[|st| - 1] == 0 then -1 else st[|st| - 1])
  {
  }

  /** A CALL followed, at any later point where the callee has left the three
      stacks as CALL made them (balanced PUSH/POP), by RET returns to the
      instruction after the CALL with the caller's variables restored, except
      that the return variable carries the callee's value (or is unset). */
  lemma CallRetPair(x: Executable, natives: set<string>, unsafeHeap: bool, s: MState, callee: MState)
    requires 0 <= s.eip < |x.code| && Decode(x.code[s.eip].instr) == CALL
    requires x.code[s.eip].arg1 in x.labels && x.code[s.eip].arg1 != ""
    requires var entered := Exec(x, natives, unsafeHeap, s).next;
             callee.callStack == entered.callStack && callee.savedStacks == entered.savedStacks
             && callee.mem.stack == entered.mem.stack
    requires 0 <= callee.eip < |x.code| && Decode(x.code[callee.eip].instr) == RET
    ensures var ret := ReturnVar(x.code[s.eip].arg1);
            var t := Exec(x, natives, unsafeHeap, callee);
            t.outcome == Running && t.next.eip == s.eip + 1
            && t.next.callStack == s.callStack && t.next.savedStacks == s.savedStacks
            && t.next.mem.stack == s.mem.stack
            && (forall k :: k != ret ==> Get(t.next.mem.varMap, k) == Get(s.mem.varMap, k))
            && (forall k :: k != ret ==> (k in t.next.mem.varMap <==> k in s.mem.varMap))
            && Get(t.next.mem.varMap, ret) == Get(callee.mem.varMap, ret)
            && (ret in t.next.mem.varMap <==> ret in callee.mem.varMap)
  {
    var f := x.code[s.eip].arg1;
    CallStep(x, natives, unsafeHeap, s);
    assert (s.callStack + [f])[..|s.callStack|] == s.callStack;
    assert (s.savedStacks + [s.mem.varMap])[..|s.savedStacks|] == s.savedStacks;
    assert (s.mem.stack + [s.eip + 1])[..|s.mem.stack|] == s.mem.stack;
    var popped := PopFrame(callee);
    assert popped.mem.varMap == KeepReturn(s.mem.varMap, ReturnVar(f), callee.mem.varMap);
  }

  /** The same pairing for a CALL of the empty label (declared by a line `:`):
      RET skips the return variable and restores the caller's map in full. */
  lemma CallRetEmptyLabel(x: Executable, natives: set<string>, unsafeHeap: bool, s: MState, callee: MState)
    requires 0 <= s.eip < |x.code| && Decode(x.code[s.eip].instr) == CALL
    requires x.code[s.eip].arg1 in x.labels && x.code[s.eip].arg1 == ""
    requires var entered := Exec(x, natives, unsafeHeap, s).next;
             callee.callStack == entered.callStack && callee.savedStacks == entered.savedStacks
             && callee.mem.stack == entered.mem.stack
    requires 0 <= callee.eip < |x.code| && Decode(x.code[callee.eip].instr) == RET
    ensures var t := Exec(x, natives, unsafeHeap, callee);
            t.outcome == Running && t.next.eip == s.eip + 1
            && t.next.callStack == s.callStack && t.next.savedStacks == s.savedStacks
            && t.next.mem.stack == s.mem.stack
            && t.next.mem.varMap == s.mem.varMap
  {
    CallStep(x, natives, unsafeHeap, s);
    assert (s.callStack + [""])[..|s.callStack|] == s.callStack;
    assert (s.savedStacks + [s.mem.varMap])[..|s.savedStacks|] == s.savedStacks;
    assert (s.mem.stack + [s.eip + 1])[..|s.mem.stack|] == s.mem.stack;
  }

  // ---------------------------------------------------------------------------
  // Properties of runs

  /** A run of n > 0 steps is one step followed, while Running, by a run of n - 1. */
  lemma RunFirstStep(x: Executable, natives: set<string>, unsafeHeap: bool, s: MState, n: nat,
                     outcome: Outcome, next: MState)
    requires n > 0 && Transition(outcome, next) == Exec(x, natives, unsafeHeap, s)
    ensures outcome == Running ==> Run(x, natives, unsafeHeap, s, n) == Run(x, natives, unsafeHeap, next, n - 1)
    ensures outcome != Running ==> Run(x, natives, unsafeHeap, s, n) == Transition(outcome, next)
  {
  }

  /** No sequence of steps allocates or frees heap memory, resizes the heap or
      unbalances the called-label and saved-map stacks. */
  lemma {:induction false} RunKeepsShape(x: Executable, natives: set<string>, unsafeHeap: bool, s: MState, fuel: nat)
    requires |s.callStack| == |s.savedStacks|
    decreases fuel
    ensures var t := Run(x, natives, unsafeHeap, s, fuel);
            t.next.mem.heapFree == s.mem.heapFree && t.next.mem.ptrSize == s.mem.ptrSize
            && |t.next.mem.heap| == |s.mem.heap| && |t.next.callStack| == |t.next.savedStacks|
  {
    if fuel > 0 {
      var t := Exec(x, natives, unsafeHeap, s);
      RunFirstStep(x, natives, unsafeHeap, s, fuel, t.outcome, t.next);
      if t.outcome == Running {
        RunKeepsShape(x, natives, unsafeHeap, t.next, fuel - 1);
      }
    }
  }

  /** A run stops normally only on an END instruction, and stops there with eip on it. */
  lemma {:induction false} RunHaltsAtEnd(x: Executable, natives: set<string>, unsafeHeap: bool, s: MState, fuel: nat)
    decreases fuel
    ensures var t := Run(x, natives, unsafeHeap, s, fuel);
            t.outcome == Halted ==> 0 <= t.next.eip < |x.code| && Decode(x.code[t.next.eip].instr) == END
  {
    if fuel > 0 {
      var t := Exec(x, natives, unsafeHeap, s);
      if t.outcome == Running {
        RunHaltsAtEnd(x, natives, unsafeHeap, t.next, fuel - 1);
      }
    }
  }

  /** The first step of a loaded program is the bootstrap CALL: it enters the
      entry label with return index 1, or raises LabelNotFound when the
      listing never declares it. */
  lemma BootCallsEntry(ls: seq<Loader.Line>, entry: string, natives: set<string>, unsafeHeap: bool, m: MemState)
    ensures var img := Loader.Build(ls, entry);
            var t := Exec(Executable(img.bin, img.labels), natives, unsafeHeap, MState(0, m, [], []));
            t.next.callStack == [entry] && t.next.savedStacks == [m.varMap] && t.next.mem.stack == m.stack + [1]
            && (entry in img.labels <==> Loader.Label(entry) in ls)
            && (entry in img.labels ==> t.outcome == Running && t.next.eip == img.labels[entry])
            && (entry !in img.labels ==> t.outcome == Fault(LabelNotFound(Instr("CALL", entry, ""))))
  {
    var img := Loader.Build(ls, entry);
    Loader.LoadedShape(ls, entry);
    Loader.LabelsDeclared(ls, entry, entry);
    CallStep(Executable(img.bin, img.labels), natives, unsafeHeap, MState(0, m, [], []));
  }

  /** Returning to index 1 of a loaded program reaches the bootstrap END and halts. */
  lemma BootEndHalts(ls: seq<Loader.Line>, entry: string, natives: set<string>, unsafeHeap: bool, s: MState)
    requires s.eip == 1
    ensures var img := Loader.Build(ls, entry);
            Exec(Executable(img.bin, img.labels), natives, unsafeHeap, s) == Transition(Halted, s)
  {
    Loader.LoadedShape(ls, entry);
    DecodeName(END);
  }

  /** The program `main: MOV a 3; MOV b 4; ADD a b; MOV $exit_arg1 a; INT native_exit`
      behind the bootstrap. */
  function AddProgram(): Executable {
    Executable(
      [Instr("CALL", "main", ""), Instr("END", "", ""),
       Instr("MOV", "a", "3"), Instr("MOV", "b", "4"), Instr("ADD", "a", "b"),
       Instr("MOV", "$exit_arg1", "a"), Instr("INT", "native_exit", "")],
      map["main" := 2])
  }

  /** The states AddProgram passes through from eip 0, over memory m with no
      variables and an empty stack. */
  function AddTrace(m: MemState): seq<MState> {
    var entered := MState(2, m.(stack := [1]), ["main"], [map[]]);
    [MState(0, m, [], []),
     entered,
     entered.(eip := 3, mem := entered.mem.(varMap := map["a" := 3])),
     entered.(eip := 4, mem := entered.mem.(varMap := map["a" := 3, "b" := 4])),
     entered.(eip := 5, mem := entered.mem.(varMap := map["a" := 7, "b" := 4])),
     entered.(eip := 6, mem := entered.mem.(varMap := map["a" := 7, "b" := 4, "$exit_arg1" := 7]))]
  }

  lemma AddTraceCall(m: MemState)
    requires m.varMap == map[] && m.stack == []
    ensures Exec(AddProgram(), {"exit"}, false, AddTrace(m)[0]) == Transition(Running, AddTrace(m)[1])
  {
    CallStep(AddProgram(), {"exit"}, false, AddTrace(m)[0]);
  }

  lemma AddTraceMoves(m: MemState)
    requires m.varMap == map[] && m.stack == []
    ensures Exec(AddProgram(), {"exit"}, false, AddTrace(m)[1]) == Transition(Running, AddTrace(m)[2])
    ensures Exec(AddProgram(), {"exit"}, false, AddTrace(m)[2]) == Transition(Running, AddTrace(m)[3])
  {
    assert IsDigits("3") && DecimalValue("3") == 3;
    assert IsDigits("4") && DecimalValue("4") == 4;
  }

  lemma AddTraceAdd(m: MemState)
    requires m.varMap == map[] && m.stack == []
    ensures Exec(AddProgram(), {"exit"}, false, AddTrace(m)[3]) == Transition(Running, AddTrace(m)[4])
    ensures Exec(AddProgram(), {"exit"}, false, AddTrace(m)[4]) == Transition(Running, AddTrace(m)[5])
  {
    assert "a"[0] == 'a' && !IsDigits("a");
  }

  lemma AddTraceInt(m: MemState)
    requires m.varMap == map[] && m.stack == []
    ensures Exec(AddProgram(), {"exit"}, false, AddTrace(m)[5])
            == Transition(NativeCall("native_exit"), AddTrace(m)[5].(eip := 7))
  {
    assert AddProgram().code[6].arg1 == "native_" + "exit";
    IntStep(AddProgram(), {"exit"}, false, AddTrace(m)[5]);
  }

  /** The last three steps of AddProgram: the addition, the move and the native call. */
  lemma AddRunTail(m: MemState, n: nat)
    requires m.varMap == map[] && m.stack == [] && n >= 3
    ensures Run(AddProgram(), {"exit"}, false, AddTrace(m)[3], n)
            == Transition(NativeCall("native_exit"), AddTrace(m)[5].(eip := 7))
  {
    var x, natives, tr := AddProgram(), {"exit"}, AddTrace(m);
    AddTraceAdd(m);
    AddTraceInt(m);
    RunFirstStep(x, natives, false, tr[5], n - 2, NativeCall("native_exit"), tr[5].(eip := 7));
    RunFirstStep(x, natives, false, tr[4], n - 1, Running, tr[5]);
    RunFirstStep(x, natives, false, tr[3], n, Running, tr[4]);
  }

  /** From the first instruction after the call, AddProgram reaches the native call. */
  lemma AddRunBody(m: MemState, n: nat)
    requires m.varMap == map[] && m.stack == [] && n >= 5
    ensures Run(AddProgram(), {"exit"}, false, AddTrace(m)[1], n)
            == Transition(NativeCall("native_exit"), AddTrace(m)[5].(eip := 7))
  {
    var x, natives, tr := AddProgram(), {"exit"}, AddTrace(m);
    AddTraceMoves(m);
    AddRunTail(m, n - 2);
    RunFirstStep(x, natives, false, tr[2], n - 1, Running, tr[3]);
    RunFirstStep(x, natives, false, tr[1], n, Running, tr[2]);
  }

  /** Run from the bootstrap, AddProgram reaches the native `exit` with 7 as its argument. */
  lemma AddThenExit(m: MemState, fuel: nat)
    requires m.varMap == map[] && m.stack == [] && fuel >= 6
    ensures var t := Run(AddProgram(), {"exit"}, false, MState(0, m, [], []), fuel);
            t.outcome == NativeCall("native_exit") && Get(t.next.mem.varMap, "$exit_arg1") == 7
  {
    var tr := AddTrace(m);
    AddTraceCall(m);
    AddRunBody(m, fuel - 1);
    RunFirstStep(AddProgram(), {"exit"}, false, tr[0], fuel, Running, tr[1]);
  }

  // ---------------------------------------------------------------------------
  // The machine as an object

  /** A loaded program: the executable, the metadata, the memory record, the
      call stack of label names and the saved variable maps (a single list
      shared by all programs at Interpret.ts:114; one per machine here). */
  class Machine {
    const exec: Executable
    const meta: map<string, string>
    const memory: Memory
    var callStack: seq<string>
    var savedStacks: seq<map<string, int>>
    var eip: int

    function State(): MState
      reads this, memory, memory.heap
    {
      MState(eip, memory.Abs(), callStack, savedStacks)
    }

    constructor (exec: Executable, meta: map<string, string>, memory: Memory)
      ensures this.exec == exec && this.meta == meta && this.memory == memory
      ensures eip == 0 && callStack == [] && savedStacks == []
    {
      this.exec := exec;
      this.meta := meta;
      this.memory := memory;
      eip := 0;
      callStack := [];
      savedStacks := [];
    }

    /** saveStack: push a copy of the given variable map. */
    method SaveStack(vars: map<string, int>)
      modifies this
      ensures State() == old(State()).(savedStacks := old(savedStacks) + [vars])
    {
      savedStacks := savedStacks + [vars];
    }

    /** loadStack: pop the last saved map and make it the variable map,
        carrying over the callee's return variable. */
    method LoadStack()
      modifies this, memory
      ensures State() == PopFrame(old(State()))
    {
      if savedStacks == [] {
        return;
      }
      var o := savedStacks[|savedStacks| - 1];
      savedStacks := savedStacks[..|savedStacks| - 1];
      if callStack != [] {
        var callFun := callStack[|callStack| - 1];
        callStack := callStack[..|callStack| - 1];
        if callFun != "" {
          var ret := ReturnVar(callFun);
          o := if ret in memory.varMap then o[ret := memory.varMap[ret]] else o - {ret};
        }
      }
      memory.varMap := o;
    }

    /** internalJMP. */
    method InternalJmp(ins: Instr) returns (outcome: Outcome)
      modifies this
      ensures Transition(outcome, State()) == JumpTo(exec, old(State()), ins)
    {
      if ins.arg1 !in exec.labels {
        return Fault(LabelNotFound(ins));
      }
      eip := exec.labels[ins.arg1];
      return Running;
    }

    /** One iteration of runProgram's loop, in place. */
    method Step(natives: set<string>, unsafeHeap: bool) returns (outcome: Outcome)
      modifies this, memory, memory.heap
      ensures Transition(outcome, State()) == Exec(exec, natives, unsafeHeap, old(State()))
    {
      if !(0 <= eip < |exec.code|) {
        return Fault(InstrNotFound(eip));
      }
      match Decode(exec.code[eip].instr) {
        case DEL | MOV | IN =>
          outcome := VarStep();
        case CMP =>
          outcome := Compare();
        case ADD | SUB | MUL | AND | OR | XOR | NOT =>
          outcome := ArithStep();
        case PUSH | POP | PUSH0 | POP0 =>
          outcome := StackStep();
        case JE | JNE | JAE | JA | JBE | JB =>
          outcome := CondJmp();
        case CALL | RET | OUT | END | JMP | INT | DIV | NOP | Other =>
          outcome := ControlStep(natives, unsafeHeap);
      }
    }

    /** The opcodes that change control flow or leave the machine: CALL, RET,
        OUT, END, JMP, INT, DIV, NOP and names outside InstrSet. */
    method ControlStep(natives: set<string>, unsafeHeap: bool) returns (outcome: Outcome)
      requires 0 <= eip < |exec.code|
      requires Decode(exec.code[eip].instr) in {CALL, RET, OUT, END, JMP, INT, DIV, NOP, Other}
      modifies this, memory, memory.heap
      ensures Transition(outcome, State()) == Exec(exec, natives, unsafeHeap, old(State()))
    {
      var curr := exec.code[eip];
      match Decode(curr.instr) {
        case CALL =>
          outcome := Call();
        case RET =>
          outcome := Ret();
        case OUT =>
          outcome := OutStep(unsafeHeap);
        case END =>
          outcome := Halted;
        case JMP =>
          outcome := InternalJmp(curr);
        case INT =>
          if curr.arg1 !in Registered(natives) {
            return Fault(INTNotFound(curr.arg1));
          }
          outcome := NativeCall(curr.arg1);
          eip := eip + 1;
        case DIV =>
          outcome := Unmodelled;
        case NOP | Other =>
          outcome := Running;
          eip := eip + 1;
      }
    }

    /** DEL, MOV and IN: the opcodes that unset a variable or move a value into it. */
    method VarStep() returns (outcome: Outcome)
      requires 0 <= eip < |exec.code| && Decode(exec.code[eip].instr) in VarOps
      modifies this, memory
      ensures outcome == Running && State() == VarExec(old(State()), exec.code[old(eip)])
    {
      var curr := exec.code[eip];
      outcome := Running;
      match Decode(curr.instr) {
        case DEL =>
          memory.varMap := memory.varMap - {curr.arg1};
        case MOV =>
          memory.varMap := memory.varMap[curr.arg1 := Operand(memory.varMap, curr.arg2)];
        case IN =>
          var v := 0;
          if curr.arg2 in memory.varMap {
            var addr := memory.varMap[curr.arg2];
            if 0 <= addr < memory.heap.Length {
              v := memory.heap[addr] as int;
            }
          }
          memory.varMap := memory.varMap[curr.arg1 := v];
      }
      eip := eip + 1;
    }

    /** CMP: three independent tests set the flag to 1, 0 or -1. */
    method Compare() returns (outcome: Outcome)
      requires 0 <= eip < |exec.code| && Decode(exec.code[eip].instr) == CMP
      modifies this, memory
      ensures outcome == Running && State() == CmpExec(old(State()), exec.code[old(eip)])
    {
      var curr := exec.code[eip];
      var i1 := Get(memory.varMap, curr.arg1);
      var v2 := Operand(memory.varMap, curr.arg2);
      if i1 > v2 {
        memory.cmpResult := 1;
      }
      if i1 == v2 {
        memory.cmpResult := 0;
      }
      if i1 < v2 {
        memory.cmpResult := -1;
      }
      eip := eip + 1;
      outcome := Running;
    }

    /** ADD, SUB, MUL and the boolean opcodes: a1 := f(a1 || 0, a2 || 0). */
    method ArithStep() returns (outcome: Outcome)
      requires 0 <= eip < |exec.code| && Decode(exec.code[eip].instr) in ArithOps
      modifies this, memory
      ensures outcome == Running && State() == ArithExec(old(State()), exec.code[old(eip)])
    {
      var curr := exec.code[eip];
      var i1 := Get(memory.varMap, curr.arg1);
      var i2 := Get(memory.varMap, curr.arg2);
      var r := 0;
      match Decode(curr.instr) {
        case ADD =>
          r := i1 + i2;
        case SUB =>
          r := i1 - i2;
        case MUL =>
          r := i1 * i2;
        case AND =>
          r := if i1 != 0 && i2 != 0 then 1 else 0;
        case OR =>
          r := if i1 == 0 || i2 == 0 then 0 else 1;
        case XOR =>
          r := if (i1 == 0 && i2 != 0) || (i1 != 0 && i2 == 0) then 1 else 0;
        case NOT =>
          r := if i1 != 0 then 0 else 1;
      }
      memory.varMap := memory.varMap[curr.arg1 := r];
      eip := eip + 1;
      outcome := Running;
    }

    /** CALL: record the callee, save the variables, push the return index, jump. */
    method Call() returns (outcome: Outcome)
      requires 0 <= eip < |exec.code| && Decode(exec.code[eip].instr) == CALL
      modifies this, memory
      ensures forall natives, unsafeHeap ::
                Transition(outcome, State()) == Exec(exec, natives, unsafeHeap, old(State()))
    {
      var curr := exec.code[eip];
      callStack := callStack + [curr.arg1];
      SaveStack(memory.varMap);
      memory.stack := memory.stack + [eip + 1];
      outcome := InternalJmp(curr);
    }

    /** RET: restore the caller's variables, then `eip = stack.pop() || -1`. */
    method Ret() returns (outcome: Outcome)
      requires 0 <= eip < |exec.code| && Decode(exec.code[eip].instr) == RET
      modifies this, memory
      ensures forall natives, unsafeHeap ::
                Transition(outcome, State()) == Exec(exec, natives, unsafeHeap, old(State()))
    {
      LoadStack();
      if memory.stack == [] {
        eip := -1;
      } else {
        var top := memory.stack[|memory.stack| - 1];
        memory.stack := memory.stack[..|memory.stack| - 1];
        eip := if top == 0 then -1 else top;
      }
      outcome := Running;
    }

    /** The opcodes that push and pop the two value stacks. */
    method StackStep() returns (outcome: Outcome)
      requires 0 <= eip < |exec.code| && Decode(exec.code[eip].instr) in StackOps
      modifies this, memory
      ensures outcome == Running && State() == StackExec(old(State()), exec.code[old(eip)])
    {
      var curr := exec.code[eip];
      var i1 := Get(memory.varMap, curr.arg1);
      outcome := Running;
      match Decode(curr.instr) {
        case PUSH =>
          memory.stack := memory.stack + [i1];
          eip := eip + 1;
        case POP =>
          var v := 0;
          if memory.stack != [] {
            v := memory.stack[|memory.stack| - 1];
            memory.stack := memory.stack[..|memory.stack| - 1];
          }
          memory.varMap := memory.varMap[curr.arg1 := v];
          eip := eip + 1;
        case PUSH0 =>
          memory.stack0 := memory.stack0 + [i1];
          eip := eip + 1;
        case POP0 =>
          var v := 0;
          if memory.stack0 != [] {
            v := memory.stack0[|memory.stack0| - 1];
            memory.stack0 := memory.stack0[..|memory.stack0| - 1];
          }
          memory.varMap := memory.varMap[curr.arg1 := v];
          eip := eip + 1;
      }
    }

    /** A conditional jump: jump when the flag satisfies the opcode's condition, else advance. */
    method CondJmp() returns (outcome: Outcome)
      requires 0 <= eip < |exec.code| && IsCondJump(Decode(exec.code[eip].instr))
      modifies this
      ensures Transition(outcome, State()) == CondJumpExec(exec, old(State()), exec.code[old(eip)])
    {
      var curr := exec.code[eip];
      if Taken(Decode(curr.instr), memory.cmpResult) {
        outcome := InternalJmp(curr);
      } else {
        eip := eip + 1;
        outcome := Running;
      }
    }

    /** OUT: store the low byte of the second operand at the address held in
        the first, refused on a free byte unless the heap is unguarded. */
    method OutStep(unsafeHeap: bool) returns (outcome: Outcome)
      requires 0 <= eip < |exec.code| && Decode(exec.code[eip].instr) == OUT
      modifies this, memory.heap
      ensures forall natives ::
                Transition(outcome, State()) == Exec(exec, natives, unsafeHeap, old(State()))
    {
      var curr := exec.code[eip];
      if curr.arg1 in memory.varMap {
        var addr := memory.varMap[curr.arg1];
        if !unsafeHeap {
          var free := memory.IsSafeHeap(addr);
          if free {
            return Fault(AccessUnallocatedHeap(addr));
          }
        }
        memory.SetMem(addr, Get(memory.varMap, curr.arg2));
      }
      eip := eip + 1;
      outcome := Running;
    }

    /** runProgram: start at eip 0 and step until a step does not end in
        Running, for at most fuel steps. */
    method RunProgram(fuel: nat, natives: set<string>, unsafeHeap: bool) returns (outcome: Outcome)
      modifies this, memory, memory.heap
      ensures Transition(outcome, State()) == Run(exec, natives, unsafeHeap, old(State()).(eip := 0), fuel)
    {
      eip := 0;
      outcome := Resume(fuel, natives, unsafeHeap);
    }

    /** runProgram's loop, from the current instruction. */
    method Resume(fuel: nat, natives: set<string>, unsafeHeap: bool) returns (outcome: Outcome)
      modifies this, memory, memory.heap
      ensures Transition(outcome, State()) == Run(exec, natives, unsafeHeap, old(State()), fuel)
    {
      ghost var goal := Run(exec, natives, unsafeHeap, State(), fuel);
      var n := fuel;
      outcome := Running;
      while n > 0
        invariant goal == Run(exec, natives, unsafeHeap, State(), n)
        invariant outcome == Running
        decreases n
      {
        ghost var before := State();
        outcome := Step(natives, unsafeHeap);
        ghost var after := State();
        RunFirstStep(exec, natives, unsafeHeap, before, n, outcome, after);
        if outcome != Running {
          return;
        }
        n := n - 1;
      }
    }
  }

  /** loadProgram: assemble the listing and set up a fresh machine over a
      zero-filled heap of the requested size. */
  method LoadProgram(source: string, heapSize: nat, entry: string) returns (prog: Machine)
    ensures fresh(prog) && fresh(prog.memory) && fresh(prog.memory.heap)
    ensures var img := Loader.LoadSource(source, entry);
            prog.exec == Executable(img.bin, img.labels) && prog.meta == img.meta
    ensures prog.State() == MState(0, Initial(heapSize), [], [])
  {
    var bin, labels, meta := Loader.Assemble(source, entry);
    var mem := new Memory.InitHeap(heapSize);
    prog := new Machine(Executable(bin, labels), meta, mem);
  }
}

=== FILE: loader.dfy ===
/** The listing loader: splits the source into lines, classifies each line
    (blank, `#` metadata, label, instruction), and builds the program image
    behind the two bootstrap instructions `CALL entry` and `END`. */
module Loader {
  import opened Errors

  // ---------------------------------------------------------------------------
  // String helpers

  /** The whitespace that `trim` strips and `\s` matches (ASCII subset). */
  predicate IsSpace(c: char) {
    c == ' ' || c == '\t' || c == '\n' || c == '\r' || c == '\U{000B}' || c == '\U{000C}'
  }

  function TrimStart(s: string): (r: string)
    ensures |r| <= |s|
    ensures s != [] && IsSpace(s[0]) ==> |r| < |s|
  {
    if s != [] && IsSpace(s[0]) then TrimStart(s[1..]) else s
  }

  function TrimEnd(s: string): string {
    if s != [] && IsSpace(s[|s| - 1]) then TrimEnd(s[..|s| - 1]) else s
  }

  /** String.prototype.trim. */
  function Trim(s: string): string {
    TrimEnd(TrimStart(s))
  }

  /** s.split(c) for a one-character separator: always at least one piece. */
  function SplitOn(s: string, c: char): (r: seq<string>)
    ensures |r| >= 1
  {
    if s == [] then [""]
    else
      var rest := SplitOn(s[1..], c);
      if s[0] == c then [""] + rest
      else [[s[0]] + rest[0]] + rest[1..]
  }

  /** s.split(/\s+/): pieces separated by maximal runs of whitespace; a
      leading or trailing run yields an empty first or last piece. */
  function SplitWs(s: string): (r: seq<string>)
    ensures |r| >= 1
    decreases |s|
  {
    if s == [] then [""]
    else if IsSpace(s[0]) then [""] + SplitWs(TrimStart(s))
    else
      var rest := SplitWs(s[1..]);
      [[s[0]] + rest[0]] + rest[1..]
  }

  // ---------------------------------------------------------------------------
  // Line classification

  datatype Line =
    | Blank
    | Meta(key: string, value: string)
    | Label(name: string)
    | Code(ins: Instr)

  /** The text of a line that the loader looks at: trimmed, then cut at the first `;`. */
  function Stripped(l: string): string {
    SplitOn(Trim(l), ';')[0]
  }

  /** How one source line is read: the tests run in the order blank, `#`, `:`. */
  function Classify(l: string): Line {
    var l0 := Stripped(l);
    if l0 == "" then Blank
    else if l0[0] == '#' then
      var t := SplitWs(l0[1..]);
      Meta(t[0], if |t| > 1 then t[1] else "")
    else if l0[|l0| - 1] == ':' then Label(l0[..|l0| - 1])
    else
      var t := SplitWs(l0);
      Code(Instr(t[0], if |t| > 1 then t[1] else "", if |t| > 2 then t[2] else ""))
  }

  // ---------------------------------------------------------------------------
  // The program image

  /** The loader's accumulators: instructions, label table, metadata and the
      index the next instruction will get. */
  datatype Image = Image(bin: seq<Instr>, labels: map<string, int>, meta: map<string, string>, lineNo: int)

  /** generateBootStrap: the two instructions every program image starts with. */
  function BootStrap(entry: string): seq<Instr> {
    [Instr("CALL", entry, ""), Instr("END", "", "")]
  }

  /** The image before any line is read; lineNo starts at the bootstrap offset. */
  function Boot(entry: string): Image {
    Image(BootStrap(entry), map[], map[], |BootStrap(entry)|)
  }

  /** The lines of a source, as the loader classifies them. */
  function Classified(lines: seq<string>): (ls: seq<Line>)
    ensures |ls| == |lines| && forall k :: 0 <= k < |lines| ==> ls[k] == Classify(lines[k])
  {
    if lines == [] then [] else Classified(lines[..|lines| - 1]) + [Classify(lines[|lines| - 1])]
  }

  /** One iteration of the loader's loop, on a classified line. */
  function Feed(img: Image, line: Line): Image {
    match line
    case Blank => img
    case Meta(k, v) => img.(meta := img.meta[k := v])
    case Label(name) => img.(labels := img.labels[name := img.lineNo])
    case Code(ins) => img.(bin := img.bin + [ins], lineNo := img.lineNo + 1)
  }

  /** The image after reading the given classified lines in order. */
  function Build(ls: seq<Line>, entry: string): Image {
    if ls == [] then Boot(entry)
    else Feed(Build(ls[..|ls| - 1], entry), ls[|ls| - 1])
  }

  /** loadProgram's image of a source text. */
  function LoadSource(source: string, entry: string): Image {
    Build(Classified(SplitOn(source, '\n')), entry)
  }

  /** Reference definition: the instructions of the instruction lines, in order. */
  function Emitted(ls: seq<Line>): seq<Instr> {
    if ls == [] then []
    else Emitted(ls[..|ls| - 1]) + if ls[|ls| - 1].Code? then [ls[|ls| - 1].ins] else []
  }

  // ---------------------------------------------------------------------------
  // Properties of the loader

  /** The image is `CALL entry; END` followed by exactly the instructions of
      the instruction lines in order; blank, `#` and label lines take no slot,
      and lineNo is always the index of the next instruction. */
  lemma {:induction false} LoadedShape(ls: seq<Line>, entry: string)
    ensures var img := Build(ls, entry);
            img.bin == BootStrap(entry) + Emitted(ls) && img.lineNo == |img.bin|
            && img.bin[0] == Instr("CALL", entry, "") && img.bin[1] == Instr("END", "", "")
  {
    if ls != [] {
      LoadedShape(ls[..|ls| - 1], entry);
    }
  }

  /** A label maps to the index its next instruction gets (instructions before
      it plus the bootstrap offset 2); a later duplicate label wins. */
  lemma {:induction false} LabelIndex(ls: seq<Line>, entry: string, name: string, k: nat)
    requires k < |ls| && ls[k] == Label(name)
    requires forall j :: k < j < |ls| ==> ls[j] != Label(name)
    ensures var img := Build(ls, entry);
            name in img.labels && img.labels[name] == 2 + |Emitted(ls[..k])|
  {
    var init := ls[..|ls| - 1];
    if k == |ls| - 1 {
      LoadedShape(init, entry);
      assert ls[..k] == init;
    } else {
      assert init[k] == ls[k];
      assert init[..k] == ls[..k];
      LabelIndex(init, entry, name, k);
    }
  }

  /** Only label lines put names in the label table. */
  lemma {:induction false} LabelsDeclared(ls: seq<Line>, entry: string, name: string)
    ensures name in Build(ls, entry).labels <==> Label(name) in ls
  {
    if ls != [] {
      var init := ls[..|ls| - 1];
      LabelsDeclared(init, entry, name);
      assert ls == init + [ls[|ls| - 1]];
    }
  }

  /** The label test runs on the comment-stripped text, so `l: ;c` (a space
      before the comment) is an instruction line whose opcode is `l:`. */
  lemma CommentedLabelIsCode()
    ensures Classify("l: ;c") == Code(Instr("l:", "", ""))
  {
    assert TrimStart("l: ;c") == "l: ;c";
    assert TrimEnd("l: ;c") == "l: ;c";
    assert SplitOn(" ;c", ';')[0] == " ";
    assert SplitOn(": ;c", ';')[0] == ": ";
    assert SplitOn("l: ;c", ';')[0] == "l: ";
    assert Stripped("l: ;c") == "l: ";
    assert TrimStart(" ") == "";
    var sp := SplitWs(" ");
    assert sp == ["", ""];
    assert [':'] + sp[0] == ":" && sp[1..] == [""];
    var colon := SplitWs(": ");
    assert colon == [":", ""];
    assert ['l'] + colon[0] == "l:" && colon[1..] == [""];
    assert SplitWs("l: ") == ["l:", ""];
  }

  /** Without the space the same line is a label named `l`. */
  lemma CommentedLabel()
    ensures Classify("l:;c") == Label("l")
  {
    assert TrimStart("l:;c") == "l:;c";
    assert TrimEnd("l:;c") == "l:;c";
    assert SplitOn(";c", ';')[0] == "";
    assert SplitOn(":;c", ';')[0] == ":";
    assert SplitOn("l:;c", ';')[0] == "l:";
    assert Stripped("l:;c") == "l:";
  }

  // ---------------------------------------------------------------------------
  // The loader loop

  /** The loop of loadProgram: bootstrap, then one pass over the lines of the
      source, collecting instructions, labels and metadata. */
  method Assemble(source: string, entry: string)
    returns (bin: seq<Instr>, labels: map<string, int>, meta: map<string, string>)
    ensures var img := LoadSource(source, entry);
            bin == img.bin && labels == img.labels && meta == img.meta
  {
    var lns := SplitOn(source, '\n');
    bin := BootStrap(entry);
    labels := map[];
    meta := map[];
    var lineNo := |bin|;
    var i := 0;
    while i < |lns|
      invariant 0 <= i <= |lns|
      invariant Image(bin, labels, meta, lineNo) == Build(Classified(lns[..i]), entry)
    {
      ghost var done := Classified(lns[..i]);
      var line := Classify(lns[i]);
      assert lns[..i + 1][..i] == lns[..i];
      assert Classified(lns[..i + 1]) == done + [line];
      assert (done + [line])[..|done|] == done;
      match line {
        case Blank =>
        case Meta(k, v) =>
          meta := meta[k := v];
        case Label(name) =>
          labels := labels[name := lineNo];
        case Code(ins) =>
          bin := bin + [ins];
          lineNo := lineNo + 1;
      }
      i := i + 1;
    }
    assert lns[..i] == lns;
  }
}

=== FILE: memory.dfy ===
/** The heap allocator of the VM: a byte buffer, a first-fit free list of
    half-open regions kept in insertion order, the allocation size table, and
    the numeric stacks, variable map and comparison flag that share the same
    memory record. */
module Memory {
  import opened Errors

  newtype byte = x: int | 0 <= x < 256

  /** A free heap region: the half-open byte range [start, end). */
  datatype Region = Region(start: int, end: int)

  function Len(r: Region): int { r.end - r.start }

  predicate Contains(r: Region, p: int) { r.start <= p < r.end }

  /** The whole memory record as a value. */
  datatype MemState = MemState(
    heap: seq<byte>,
    heapFree: seq<Region>,
    stack: seq<int>,
    stack0: seq<int>,
    ptrSize: map<int, int>,
    varMap: map<string, int>,
    cmpResult: int)

  // ---------------------------------------------------------------------------
  // Free-list predicates

  /** Address p lies inside some free region ("p is free"). */
  predicate InFree(rs: seq<Region>, p: int) {
    exists i :: 0 <= i < |rs| && Contains(rs[i], p)
  }

  /** p lies inside a free region other than the one at index k. */
  predicate InOthers(rs: seq<Region>, k: int, p: int) {
    exists i :: 0 <= i < |rs| && i != k && Contains(rs[i], p)
  }

  /** Two regions neither overlap nor touch. */
  predicate Separated(a: Region, b: Region) {
    a.end < b.start || b.end < a.start
  }

  /** The free-list invariant: every region is a proper range and no two
      regions overlap or are adjacent (adjacent ones are always coalesced). */
  predicate Valid(rs: seq<Region>) {
    (forall i :: 0 <= i < |rs| ==> rs[i].start <= rs[i].end) &&
    (forall i, j :: 0 <= i < |rs| && 0 <= j < |rs| && i != j ==> Separated(rs[i], rs[j]))
  }

  /** Valid, except that the region at index k is ignored. */
  predicate ValidExcept(rs: seq<Region>, k: int) {
    (forall i :: 0 <= i < |rs| && i != k ==> rs[i].start <= rs[i].end) &&
    (forall i, j :: 0 <= i < |rs| && 0 <= j < |rs| && i != j && i != k && j != k ==> Separated(rs[i], rs[j]))
  }

  /** A block [ptr, eptr) lies wholly on one side of region r. */
  predicate Apart(r: Region, ptr: int, eptr: int) {
    r.end <= ptr || eptr <= r.start
  }

  /** Total number of free bytes. */
  function FreeBytes(rs: seq<Region>): int {
    if rs == [] then 0 else Len(rs[0]) + FreeBytes(rs[1..])
  }

  // ---------------------------------------------------------------------------
  // Sequence helpers

  /** The free list with the region at index k deleted (JS `Set.delete`). */
  function RemoveAt(rs: seq<Region>, k: nat): (r: seq<Region>)
    requires k < |rs|
    ensures |r| == |rs| - 1
    ensures forall j :: 0 <= j < |r| ==> r[j] == rs[if j < k then j else j + 1]
  {
    rs[..k] + rs[k + 1..]
  }

  // ---------------------------------------------------------------------------
  // malloc, as a function of the memory record

  /** Region i is the first one, in iteration order, with room for size bytes. */
  predicate FirstFitAt(rs: seq<Region>, size: int, i: int) {
    0 <= i < |rs| && Len(rs[i]) >= size && forall j :: 0 <= j < i ==> Len(rs[j]) < size
  }

  /** Index of the first region with at least size bytes, if any. */
  function FirstFit(rs: seq<Region>, size: int): (r: Option<nat>)
    ensures r.Some? ==> FirstFitAt(rs, size, r.value)
    ensures r.None? <==> forall j :: 0 <= j < |rs| ==> Len(rs[j]) < size
  {
    if rs == [] then None
    else if Len(rs[0]) >= size then Some(0)
    else match FirstFit(rs[1..], size)
      case None => None
      case Some(k) => Some(k + 1)
  }

  /** The free list after size bytes are taken from the front of region i:
      an exact fit deletes the region, a larger one moves its start forward in place. */
  function Carve(rs: seq<Region>, i: nat, size: int): seq<Region>
    requires i < |rs|
  {
    if Len(rs[i]) == size then RemoveAt(rs, i)
    else rs[i := Region(rs[i].start + size, rs[i].end)]
  }

  datatype Allocation = Allocation(mem: MemState, ret: Result<int>)

  /** malloc(mem, size): -1 for a non-positive size, OutOfMemory when no region
      is large enough, otherwise the start of the first fitting region. */
  function Allocate(m: MemState, size: int): (a: Allocation)
    ensures size <= 0 ==> a == Allocation(m, Ok(-1))
    ensures size > 0 ==> (a.ret.Err? <==> forall j :: 0 <= j < |m.heapFree| ==> Len(m.heapFree[j]) < size)
    ensures a.ret.Err? ==> a.ret.error == OutOfMemory(size) && a.mem == m
    ensures a.ret.Ok? && size > 0 ==> a.mem.ptrSize == m.ptrSize[a.ret.value := size]
    ensures a.mem == m.(heapFree := a.mem.heapFree, ptrSize := a.mem.ptrSize)
  {
    if size <= 0 then Allocation(m, Ok(-1))
    else match FirstFit(m.heapFree, size)
      case None => Allocation(m, Err(OutOfMemory(size)))
      case Some(i) =>
        var s := m.heapFree[i].start;
        Allocation(m.(heapFree := Carve(m.heapFree, i, size), ptrSize := m.ptrSize[s := size]), Ok(s))
  }

  /** malloc takes the first region in iteration order that has room (first
      fit, not best fit): it returns that region's start and records the size. */
  lemma MallocFirstFit(m: MemState, size: int, i: nat)
    requires size > 0 && FirstFitAt(m.heapFree, size, i)
    ensures Allocate(m, size) == Allocation(
              m.(heapFree := Carve(m.heapFree, i, size),
                 ptrSize := m.ptrSize[m.heapFree[i].start := size]),
              Ok(m.heapFree[i].start))
  {
    var k := FirstFit(m.heapFree, size);
    assert k.Some?;
    assert k.value == i;
  }

  // ---------------------------------------------------------------------------
  // free, as a function of the memory record

  /** The last region (in iteration order) that ends at p. */
  function LastEndingAt(rs: seq<Region>, p: int): (r: Option<nat>)
    ensures r.Some? ==> r.value < |rs| && rs[r.value].end == p
                        && forall j :: r.value < j < |rs| ==> rs[j].end != p
    ensures r.None? <==> forall j :: 0 <= j < |rs| ==> rs[j].end != p
  {
    if rs == [] then None
    else if rs[|rs| - 1].end == p then Some(|rs| - 1)
    else LastEndingAt(rs[..|rs| - 1], p)
  }

  /** The last region (in iteration order) that starts at p. */
  function LastStartingAt(rs: seq<Region>, p: int): (r: Option<nat>)
    ensures r.Some? ==> r.value < |rs| && rs[r.value].start == p
                        && forall j :: r.value < j < |rs| ==> rs[j].start != p
    ensures r.None? <==> forall j :: 0 <= j < |rs| ==> rs[j].start != p
  {
    if rs == [] then None
    else if rs[|rs| - 1].start == p then Some(|rs| - 1)
    else LastStartingAt(rs[..|rs| - 1], p)
  }

  /** The free list after the block [ptr, eptr) is returned: it is joined to the
      region ending at ptr and/or the one starting at eptr, or appended. */
  function Coalesce(rs: seq<Region>, ptr: int, eptr: int): seq<Region> {
    match (LastEndingAt(rs, ptr), LastStartingAt(rs, eptr))
    case (Some(b), Some(a)) => RemoveAt(rs[b := Region(rs[b].start, rs[a].end)], a)
    case (Some(b), None) => rs[b := Region(rs[b].start, eptr)]
    case (None, Some(a)) => rs[a := Region(ptr, rs[a].end)]
    case (None, None) => rs + [Region(ptr, eptr)]
  }

  /** free(mem, ptr): a no-op unless ptr has a non-zero recorded size; the
      size table entry is never removed. */
  function Release(m: MemState, ptr: int): (r: MemState)
    ensures (ptr !in m.ptrSize || m.ptrSize[ptr] == 0) ==> r == m
    ensures r == m.(heapFree := r.heapFree)
  {
    if ptr !in m.ptrSize || m.ptrSize[ptr] == 0 then m
    else m.(heapFree := Coalesce(m.heapFree, ptr, ptr + m.ptrSize[ptr]))
  }

  // ---------------------------------------------------------------------------
  // initHeap and heap byte access

  /** initHeap(size): a zero-filled heap whose only free region is [0, size). */
  function Initial(size: nat): (m: MemState)
    ensures |m.heap| == size && forall p :: 0 <= p < size ==> m.heap[p] == 0
    ensures Valid(m.heapFree) && FreeBytes(m.heapFree) == size
    ensures forall p :: InFree(m.heapFree, p) <==> 0 <= p < size
    ensures m.stack == [] && m.stack0 == [] && m.ptrSize == map[] && m.varMap == map[]
    ensures m.cmpResult == 0
  {
    var m := MemState(seq(size, _ => 0), [Region(0, size)], [], [], map[], map[], 0);
    assert forall p :: InFree(m.heapFree, p) <==> Contains(m.heapFree[0], p);
    m
  }

  /** A typed-array store: the value is reduced modulo 256, and an address
      outside the buffer writes nothing. */
  function Store(h: seq<byte>, addr: int, v: int): (r: seq<byte>)
    ensures |r| == |h|
    ensures forall q :: 0 <= q < |h| && q != addr ==> r[q] == h[q]
    ensures 0 <= addr < |h| ==> r[addr] as int == v % 256
  {
    if 0 <= addr < |h| then h[addr := (v % 256) as byte] else h
  }

  /** A typed-array load: an address outside the buffer reads as 0. */
  function Load(h: seq<byte>, addr: int): int {
    if 0 <= addr < |h| then h[addr] as int else 0
  }

  lemma StoreLoad(h: seq<byte>, addr: int, v: int, q: int)
    ensures Load(Store(h, addr, v), q) == if 0 <= q < |h| && q == addr then v % 256 else Load(h, q)
  {
  }

  // ---------------------------------------------------------------------------
  // Lemmas: byte counting

  lemma {:induction false} FreeBytesAppend(a: seq<Region>, b: seq<Region>)
    ensures FreeBytes(a + b) == FreeBytes(a) + FreeBytes(b)
  {
    if a == [] {
      assert a + b == b;
    } else {
      assert (a + b)[1..] == a[1..] + b;
      FreeBytesAppend(a[1..], b);
    }
  }

  lemma FreeBytesSplit(rs: seq<Region>, k: nat)
    requires k < |rs|
    ensures FreeBytes(rs) == FreeBytes(rs[..k]) + Len(rs[k]) + FreeBytes(rs[k + 1..])
  {
    assert rs == rs[..k] + ([rs[k]] + rs[k + 1..]);
    FreeBytesAppend(rs[..k], [rs[k]] + rs[k + 1..]);
    FreeBytesAppend([rs[k]], rs[k + 1..]);
  }

  lemma FreeBytesRemove(rs: seq<Region>, k: nat)
    requires k < |rs|
    ensures FreeBytes(RemoveAt(rs, k)) == FreeBytes(rs) - Len(rs[k])
  {
    FreeBytesSplit(rs, k);
    FreeBytesAppend(rs[..k], rs[k + 1..]);
  }

  lemma FreeBytesUpdate(rs: seq<Region>, k: nat, x: Region)
    requires k < |rs|
    ensures FreeBytes(rs[k := x]) == FreeBytes(rs) - Len(rs[k]) + Len(x)
  {
    FreeBytesSplit(rs, k);
    FreeBytesSplit(rs[k := x], k);
    assert rs[k := x][..k] == rs[..k];
    assert rs[k := x][k + 1..] == rs[k + 1..];
  }

  // ---------------------------------------------------------------------------
  // Lemmas: the free-list invariant under the three kinds of edit

  lemma RemoveValid(rs: seq<Region>, k: nat)
    requires k < |rs| && ValidExcept(rs, k)
    ensures Valid(RemoveAt(rs, k))
  {
    var r := RemoveAt(rs, k);
    forall i, j | 0 <= i < |r| && 0 <= j < |r| && i != j
      ensures Separated(r[i], r[j])
    {
      var i', j' := if i < k then i else i + 1, if j < k then j else j + 1;
      assert r[i] == rs[i'] && r[j] == rs[j'];
    }
  }

  lemma UpdateValid(rs: seq<Region>, k: nat, x: Region)
    requires k < |rs| && ValidExcept(rs, k) && x.start <= x.end
    requires forall j :: 0 <= j < |rs| && j != k ==> Separated(x, rs[j])
    ensures Valid(rs[k := x])
  {
  }

  lemma AppendValid(rs: seq<Region>, x: Region)
    requires Valid(rs) && x.start <= x.end
    requires forall j :: 0 <= j < |rs| ==> Separated(x, rs[j])
    ensures Valid(rs + [x])
  {
    var r := rs + [x];
    forall i, j | 0 <= i < |r| && 0 <= j < |r| && i != j
      ensures Separated(r[i], r[j])
    {
      if i < |rs| && j < |rs| {
        assert r[i] == rs[i] && r[j] == rs[j];
      }
    }
  }

  // ---------------------------------------------------------------------------
  // Lemmas: membership under the three kinds of edit

  lemma InFreeSplit(rs: seq<Region>, k: nat, p: int)
    requires k < |rs|
    ensures InFree(rs, p) <==> InOthers(rs, k, p) || Contains(rs[k], p)
  {
  }

  lemma InFreeUpdate(rs: seq<Region>, k: nat, x: Region, p: int)
    requires k < |rs|
    ensures InFree(rs[k := x], p) <==> InOthers(rs, k, p) || Contains(x, p)
  {
    if InFree(rs[k := x], p) {
      var i :| 0 <= i < |rs| && Contains(rs[k := x][i], p);
      if i != k {
        assert InOthers(rs, k, p);
      }
    }
    if InOthers(rs, k, p) {
      var i :| 0 <= i < |rs| && i != k && Contains(rs[i], p);
      assert Contains(rs[k := x][i], p);
    }
    if Contains(x, p) {
      assert Contains(rs[k := x][k], p);
    }
  }

  lemma InFreeRemove(rs: seq<Region>, k: nat, p: int)
    requires k < |rs|
    ensures InFree(RemoveAt(rs, k), p) <==> InOthers(rs, k, p)
  {
    var r := RemoveAt(rs, k);
    if InFree(r, p) {
      var i :| 0 <= i < |r| && Contains(r[i], p);
      var i' := if i < k then i else i + 1;
      assert Contains(rs[i'], p);
    }
    if InOthers(rs, k, p) {
      var i :| 0 <= i < |rs| && i != k && Contains(rs[i], p);
      var i' := if i < k then i else i - 1;
      assert r[i'] == rs[i];
    }
  }

  lemma InFreeAppend(rs: seq<Region>, x: Region, p: int)
    ensures InFree(rs + [x], p) <==> InFree(rs, p) || Contains(x, p)
  {
    var r := rs + [x];
    if InFree(r, p) {
      var i :| 0 <= i < |r| && Contains(r[i], p);
      if i < |rs| {
        assert Contains(rs[i], p);
      }
    }
    if InFree(rs, p) {
      var i :| 0 <= i < |rs| && Contains(rs[i], p);
      assert Contains(r[i], p);
    }
    if Contains(x, p) {
      assert Contains(r[|rs|], p);
    }
  }

  // ---------------------------------------------------------------------------
  // malloc properties

  /** malloc keeps the free list disjoint and non-adjacent. */
  lemma MallocKeepsValid(rs: seq<Region>, size: int, i: nat)
    requires Valid(rs) && size > 0 && FirstFitAt(rs, size, i)
    ensures Valid(Carve(rs, i, size))
  {
    if Len(rs[i]) == size {
      RemoveValid(rs, i);
    } else {
      UpdateValid(rs, i, Region(rs[i].start + size, rs[i].end));
    }
  }

  /** malloc removes exactly size bytes from the free total. */
  lemma MallocBytes(rs: seq<Region>, size: int, i: nat)
    requires FirstFitAt(rs, size, i)
    ensures FreeBytes(Carve(rs, i, size)) == FreeBytes(rs) - size
  {
    if Len(rs[i]) == size {
      FreeBytesRemove(rs, i);
    } else {
      FreeBytesUpdate(rs, i, Region(rs[i].start + size, rs[i].end));
    }
  }

  /** The block handed out was wholly free before, and afterwards the free
      addresses are exactly the old ones minus the block. */
  lemma MallocTakesBlock(rs: seq<Region>, size: int, i: nat)
    requires Valid(rs) && size > 0 && FirstFitAt(rs, size, i)
    ensures forall p :: rs[i].start <= p < rs[i].start + size ==> InFree(rs, p)
    ensures forall p :: InFree(Carve(rs, i, size), p) <==>
                        InFree(rs, p) && !(rs[i].start <= p < rs[i].start + size)
  {
    var s := rs[i].start;
    forall p | s <= p < s + size
      ensures InFree(rs, p)
    {
      assert Contains(rs[i], p);
    }
    forall p
      ensures InFree(Carve(rs, i, size), p) <==> InFree(rs, p) && !(s <= p < s + size)
    {
      InFreeSplit(rs, i, p);
      if InOthers(rs, i, p) {
        var j :| 0 <= j < |rs| && j != i && Contains(rs[j], p);
        assert Separated(rs[i], rs[j]);
      }
      if Len(rs[i]) == size {
        InFreeRemove(rs, i, p);
      } else {
        InFreeUpdate(rs, i, Region(s + size, rs[i].end), p);
      }
    }
  }

  // ---------------------------------------------------------------------------
  // free properties

  /** In a valid free list the regions that end at ptr and start at eptr of a
      non-empty block are two different regions. */
  lemma NeighboursDistinct(rs: seq<Region>, ptr: int, eptr: int, b: nat, a: nat)
    requires Valid(rs) && ptr < eptr && b < |rs| && a < |rs|
    requires rs[b].end == ptr && rs[a].start == eptr
    ensures a != b
  {
  }

  /** Returning a block that overlaps no free region keeps the free list
      disjoint and non-adjacent, in all four coalescing cases. */
  lemma FreeKeepsValid(rs: seq<Region>, ptr: int, eptr: int)
    requires Valid(rs) && ptr < eptr
    requires forall j :: 0 <= j < |rs| ==> Apart(rs[j], ptr, eptr)
    ensures Valid(Coalesce(rs, ptr, eptr))
  {
    match (LastEndingAt(rs, ptr), LastStartingAt(rs, eptr))
    case (Some(b), Some(a)) =>
      NeighboursDistinct(rs, ptr, eptr, b, a);
      var m := Region(rs[b].start, rs[a].end);
      var rs1 := rs[b := m];
      forall i, j | 0 <= i < |rs1| && 0 <= j < |rs1| && i != j && i != a && j != a
        ensures Separated(rs1[i], rs1[j])
      {
        if i == b {
          assert Separated(rs[b], rs[j]) && Separated(rs[a], rs[j]) && Apart(rs[j], ptr, eptr);
        } else if j == b {
          assert Separated(rs[b], rs[i]) && Separated(rs[a], rs[i]) && Apart(rs[i], ptr, eptr);
        } else {
          assert Separated(rs[i], rs[j]);
        }
      }
      RemoveValid(rs1, a);
    case (Some(b), None) =>
      var m := Region(rs[b].start, eptr);
      forall j | 0 <= j < |rs| && j != b
        ensures Separated(m, rs[j])
      {
        assert Separated(rs[b], rs[j]) && Apart(rs[j], ptr, eptr);
      }
      UpdateValid(rs, b, m);
    case (None, Some(a)) =>
      var m := Region(ptr, rs[a].end);
      forall j | 0 <= j < |rs| && j != a
        ensures Separated(m, rs[j])
      {
        assert Separated(rs[a], rs[j]) && Apart(rs[j], ptr, eptr);
      }
      UpdateValid(rs, a, m);
    case (None, None) =>
      AppendValid(rs, Region(ptr, eptr));
  }

  /** Returning a block adds exactly its size to the free total. */
  lemma FreeBytesGrow(rs: seq<Region>, ptr: int, eptr: int)
    requires Valid(rs) && ptr < eptr
    ensures FreeBytes(Coalesce(rs, ptr, eptr)) == FreeBytes(rs) + (eptr - ptr)
  {
    match (LastEndingAt(rs, ptr), LastStartingAt(rs, eptr))
    case (Some(b), Some(a)) =>
      NeighboursDistinct(rs, ptr, eptr, b, a);
      var rs1 := rs[b := Region(rs[b].start, rs[a].end)];
      FreeBytesUpdate(rs, b, Region(rs[b].start, rs[a].end));
      FreeBytesRemove(rs1, a);
    case (Some(b), None) =>
      FreeBytesUpdate(rs, b, Region(rs[b].start, eptr));
    case (None, Some(a)) =>
      FreeBytesUpdate(rs, a, Region(ptr, rs[a].end));
    case (None, None) =>
      FreeBytesAppend(rs, [Region(ptr, eptr)]);
  }

  /** Returning a block grows the set of free addresses by exactly that block. */
  lemma FreeUnion(rs: seq<Region>, ptr: int, eptr: int)
    requires Valid(rs) && ptr < eptr
    ensures forall p :: InFree(Coalesce(rs, ptr, eptr), p) <==> InFree(rs, p) || ptr <= p < eptr
  {
    forall p
      ensures InFree(Coalesce(rs, ptr, eptr), p) <==> InFree(rs, p) || ptr <= p < eptr
    {
      match (LastEndingAt(rs, ptr), LastStartingAt(rs, eptr))
      case (Some(b), Some(a)) =>
        NeighboursDistinct(rs, ptr, eptr, b, a);
        var m := Region(rs[b].start, rs[a].end);
        var rs1 := rs[b := m];
        InFreeRemove(rs1, a, p);
        InFreeSplit(rs, a, p);
        if InOthers(rs1, a, p) {
          var i :| 0 <= i < |rs1| && i != a && Contains(rs1[i], p);
          if i != b {
            assert Contains(rs[i], p);
          }
        }
        if InOthers(rs, a, p) {
          var i :| 0 <= i < |rs| && i != a && Contains(rs[i], p);
          if i != b {
            assert Contains(rs1[i], p);
          } else {
            assert Contains(rs1[b], p);
          }
        }
        if ptr <= p < eptr || Contains(rs[a], p) {
          assert Contains(rs1[b], p);
        }
      case (Some(b), None) =>
        InFreeUpdate(rs, b, Region(rs[b].start, eptr), p);
        InFreeSplit(rs, b, p);
      case (None, Some(a)) =>
        InFreeUpdate(rs, a, Region(ptr, rs[a].end), p);
        InFreeSplit(rs, a, p);
      case (None, None) =>
        InFreeAppend(rs, Region(ptr, eptr), p);
    }
  }

  /** A size-table entry is never removed, so a second free of the same
      address is not ignored: here it appends a region overlapping a free one. */
  lemma DoubleFreeOverlaps()
    ensures var m0 := Initial(10);
            var a := Allocate(m0, 4);
            var m1 := Release(a.mem, 0);
            var m2 := Release(m1, 0);
            a.ret == Ok(0) && m1.heapFree == [Region(0, 10)]
            && m2.heapFree == [Region(0, 10), Region(0, 4)] && !Valid(m2.heapFree)
  {
    var m0 := Initial(10);
    assert FirstFit(m0.heapFree, 4) == Some(0);
    var a := Allocate(m0, 4);
    assert a.mem.heapFree == [Region(4, 10)];
    assert LastEndingAt(a.mem.heapFree, 0) == None;
    assert LastStartingAt(a.mem.heapFree, 4) == Some(0);
    var m1 := Release(a.mem, 0);
    assert m1.heapFree == [Region(0, 10)];
    assert LastEndingAt(m1.heapFree, 0) == None;
    assert LastStartingAt(m1.heapFree, 4) == None;
    var m2 := Release(m1, 0);
    assert !Separated(m2.heapFree[0], m2.heapFree[1]);
  }

  // ---------------------------------------------------------------------------
  // The malloc / free round trip

  /** Round trip after an exact fit: the region comes back, appended at the end. */
  lemma RoundTripExact(rs: seq<Region>, size: int, i: nat)
    requires Valid(rs) && size > 0 && FirstFitAt(rs, size, i) && Len(rs[i]) == size
    ensures Coalesce(Carve(rs, i, size), rs[i].start, rs[i].start + size) == RemoveAt(rs, i) + [rs[i]]
  {
    var s := rs[i].start;
    var c := RemoveAt(rs, i);
    assert Carve(rs, i, size) == c;
    forall j | 0 <= j < |c|
      ensures c[j].end != s && c[j].start != s + size
    {
      var j' := if j < i then j else j + 1;
      assert c[j] == rs[j'];
      assert Separated(rs[i], rs[j']);
    }
    assert LastEndingAt(c, s).None?;
    assert LastStartingAt(c, s + size).None?;
    assert Coalesce(c, s, s + size) == c + [Region(s, s + size)];
  }

  /** Round trip after a larger fit: the shrunk region grows back in place. */
  lemma RoundTripShrunk(rs: seq<Region>, size: int, i: nat)
    requires Valid(rs) && size > 0 && FirstFitAt(rs, size, i) && Len(rs[i]) > size
    ensures Coalesce(Carve(rs, i, size), rs[i].start, rs[i].start + size) == rs
  {
    var s := rs[i].start;
    var c := rs[i := Region(s + size, rs[i].end)];
    forall j | 0 <= j < |c|
      ensures c[j].end != s && (c[j].start == s + size <==> j == i)
    {
      if j != i {
        assert c[j] == rs[j] && Separated(rs[i], rs[j]);
      }
    }
    assert LastEndingAt(c, s) == None;
    var after := LastStartingAt(c, s + size);
    assert c[i].start == s + size;
    assert after.Some? && after.value == i;
    assert c[i := Region(s, rs[i].end)] == rs;
  }

  /** Moving one region to the end of the list keeps the same regions. */
  lemma MoveToEnd(rs: seq<Region>, i: nat)
    requires i < |rs|
    ensures multiset(RemoveAt(rs, i) + [rs[i]]) == multiset(rs)
  {
    assert rs == rs[..i] + [rs[i]] + rs[i + 1..];
    assert RemoveAt(rs, i) + [rs[i]] == rs[..i] + rs[i + 1..] + [rs[i]];
  }

  /** Equal sequences have equal multisets (stated for the solver's benefit). */
  lemma SameMultiset(x: seq<Region>, c: seq<Region>, rs: seq<Region>)
    requires x == c && multiset(c) == multiset(rs)
    ensures multiset(x) == multiset(rs)
  {
  }

  lemma RoundTripRegions(rs: seq<Region>, size: int, i: nat)
    requires Valid(rs) && size > 0 && FirstFitAt(rs, size, i)
    ensures multiset(Coalesce(Carve(rs, i, size), rs[i].start, rs[i].start + size)) == multiset(rs)
  {
    var back := Coalesce(Carve(rs, i, size), rs[i].start, rs[i].start + size);
    if Len(rs[i]) == size {
      RoundTripExact(rs, size, i);
      MoveToEnd(rs, i);
      SameMultiset(back, RemoveAt(rs, i) + [rs[i]], rs);
    } else {
      RoundTripShrunk(rs, size, i);
    }
  }

  /** Two record updates in a row, as one (stated for the solver's benefit). */
  lemma UpdateTwice(m: MemState, mid: MemState, back: MemState)
    requires mid == m.(heapFree := mid.heapFree, ptrSize := mid.ptrSize)
    requires back == mid.(heapFree := back.heapFree)
    ensures back == m.(heapFree := back.heapFree, ptrSize := mid.ptrSize)
  {
  }

  /** On an exact fit the round trip gives the region back at the end of the list. */
  lemma MallocFreeRoundTripExact(m: MemState, size: int)
    requires Valid(m.heapFree) && size > 0
    requires FirstFit(m.heapFree, size).Some? && Len(m.heapFree[FirstFit(m.heapFree, size).value]) == size
    ensures var i := FirstFit(m.heapFree, size).value;
            var a := Allocate(m, size);
            Release(a.mem, a.ret.value).heapFree == RemoveAt(m.heapFree, i) + [m.heapFree[i]]
  {
    var i := FirstFit(m.heapFree, size).value;
    MallocFirstFit(m, size, i);
    RoundTripExact(m.heapFree, size, i);
  }

  /** On a non-exact fit the round trip restores the free list exactly, order included. */
  lemma MallocFreeRoundTripInPlace(m: MemState, size: int)
    requires Valid(m.heapFree) && size > 0
    requires FirstFit(m.heapFree, size).Some? && Len(m.heapFree[FirstFit(m.heapFree, size).value]) > size
    ensures var a := Allocate(m, size);
            Release(a.mem, a.ret.value).heapFree == m.heapFree
  {
    var i := FirstFit(m.heapFree, size).value;
    MallocFirstFit(m, size, i);
    RoundTripShrunk(m.heapFree, size, i);
  }

  /** malloc(n) immediately followed by free of its result restores the same
      free regions; only after an exact fit can their order change. */
  lemma MallocFreeRoundTrip(m: MemState, size: int)
    requires Valid(m.heapFree) && size > 0
    requires Allocate(m, size).ret.Ok?
    ensures var a := Allocate(m, size);
            var back := Release(a.mem, a.ret.value);
            multiset(back.heapFree) == multiset(m.heapFree)
            && back == m.(heapFree := back.heapFree, ptrSize := a.mem.ptrSize)
  {
    var i := FirstFit(m.heapFree, size).value;
    var a := Allocate(m, size);
    var back := Release(a.mem, a.ret.value);
    if Len(m.heapFree[i]) > size {
      MallocFreeRoundTripInPlace(m, size);
    } else {
      MallocFreeRoundTripExact(m, size);
      MoveToEnd(m.heapFree, i);
      SameMultiset(back.heapFree, RemoveAt(m.heapFree, i) + [m.heapFree[i]], m.heapFree);
    }
    UpdateTwice(m, a.mem, back);
  }

  // ---------------------------------------------------------------------------
  // The memory record as an object

  /** The memory record that malloc, free and the interpreter update in place. */
  class Memory {
    const heap: array<byte>
    var heapFree: seq<Region>
    var stack: seq<int>
    var stack0: seq<int>
    var ptrSize: map<int, int>
    var varMap: map<string, int>
    var cmpResult: int

    /** The record's current contents as a value. */
    function Abs(): MemState
      reads this, heap
    {
      MemState(heap[..], heapFree, stack, stack0, ptrSize, varMap, cmpResult)
    }

    constructor InitHeap(size: nat)
      ensures fresh(heap)
      ensures Abs() == Initial(size)
    {
      heap := new byte[size](_ => 0);
      heapFree := [Region(0, size)];
      stack := [];
      stack0 := [];
      ptrSize := map[];
      varMap := map[];
      cmpResult := 0;
      new;
      assert heap[..] == seq(size, _ => 0);
    }

    /** isSafeHeap: true iff ptr lies in a free region. */
    method IsSafeHeap(ptr: int) returns (b: bool)
      ensures b == InFree(heapFree, ptr)
    {
      var i := 0;
      while i < |heapFree|
        invariant 0 <= i <= |heapFree|
        invariant forall j :: 0 <= j < i ==> !Contains(heapFree[j], ptr)
      {
        if heapFree[i].start <= ptr && heapFree[i].end > ptr {
          return true;
        }
        i := i + 1;
      }
      return false;
    }

    /** setMem: a typed-array store into the heap buffer. */
    method SetMem(ptr: int, data: int)
      modifies heap
      ensures heap[..] == Store(old(heap[..]), ptr, data)
    {
      if 0 <= ptr < heap.Length {
        heap[ptr] := (data % 256) as byte;
      }
    }

    /** malloc: first fit over the free list in iteration order. */
    method Malloc(size: int) returns (r: Result<int>)
      modifies this
      ensures Allocation(Abs(), r) == Allocate(old(Abs()), size)
    {
      if size <= 0 {
        return Ok(-1);
      }
      var i := 0;
      while i < |heapFree|
        invariant 0 <= i <= |heapFree|
        invariant forall j :: 0 <= j < i ==> Len(heapFree[j]) < size
        invariant heapFree == old(heapFree) && ptrSize == old(ptrSize)
      {
        var rg := heapFree[i];
        if rg.end - rg.start == size {
          var s := rg.start;
          MallocFirstFit(old(Abs()), size, i);
          heapFree := RemoveAt(heapFree, i);
          ptrSize := ptrSize[s := size];
          return Ok(s);
        }
        if rg.end - rg.start > size {
          var s := rg.start;
          MallocFirstFit(old(Abs()), size, i);
          heapFree := heapFree[i := Region(s + size, rg.end)];
          ptrSize := ptrSize[s := size];
          return Ok(s);
        }
        i := i + 1;
      }
      return Err(OutOfMemory(size));
    }

    /** free: look up the recorded size, find the neighbouring free regions, coalesce. */
    method Free(ptr: int)
      modifies this
      ensures Abs() == Release(old(Abs()), ptr)
    {
      if ptr !in ptrSize || ptrSize[ptr] == 0 {
        return;
      }
      var sz := ptrSize[ptr];
      var before: Option<nat> := None;
      var after: Option<nat> := None;
      var eptr := ptr + sz;
      var i := 0;
      while i < |heapFree|
        invariant 0 <= i <= |heapFree|
        invariant before == LastEndingAt(heapFree[..i], ptr)
        invariant after == LastStartingAt(heapFree[..i], eptr)
      {
        assert heapFree[..i + 1][..i] == heapFree[..i];
        if ptr == heapFree[i].end {
          before := Some(i);
        }
        if eptr == heapFree[i].start {
          after := Some(i);
        }
        i := i + 1;
      }
      assert heapFree[..i] == heapFree;
      match (before, after)
      case (Some(b), Some(a)) =>
        heapFree := heapFree[b := Region(heapFree[b].start, heapFree[a].end)];
        heapFree := RemoveAt(heapFree, a);
      case (Some(b), None) =>
        heapFree := heapFree[b := Region(heapFree[b].start, eptr)];
      case (None, Some(a)) =>
        heapFree := heapFree[a := Region(ptr, heapFree[a].end)];
      case (None, None) =>
        heapFree := heapFree + [Region(ptr, eptr)];
    }
  }
}
